=== FILE: README.md ===
# Directus desktop shell — a Dafny model of its launch logic

The repository packages the Directus CMS as an Electron desktop app. Its own
logic is small. It finds the bundled server on disk, builds an environment
for it and spawns it. It records the child's output in a startup log and
polls `GET /server/health` until the server answers 200. It reports failures
in error dialogs that name the log file, and it stops the child on quit. Two
helper scripts start the CMS: a CommonJS launcher and an ES-module wrapper.
An in-process entry point merges a `.env` file into `process.env`.

This project models those decisions as pure Dafny functions and one loop
method. The filesystem is the set of existing paths (`Disk`), so
`existsSync` is set membership and a recursive `mkdirSync` adds the directory
and its ancestors to the set, or throws. HTTP
responses, child-process events, timestamps and random key material are
parameters. Timers are discrete steps.

Modules, one per source file or shared concept:

- `Search` (search.dfy): in-order "first candidate that satisfies" search, as a function and as the probing loop.
- `Text` (text.dfy): `startsWith`/`includes`, JavaScript `trim`, the backslash rewrite, and decimal rendering of exit codes.
- `Platform` (platform.dfy): paths, `process.env` truthiness, mkdir-if-missing, and the `process.argv` rewrite.
- `Supervisor` (supervisor.dfy): electron-app/main.js without the poller.
- `Poller` (poller.dfy): `checkDirectusReady` in electron-app/main.js.
- `Launcher` (launcher.dfy): directus-app/server.js.
- `Shell` (shell.dfy): src/index.js.
- `Wrapper` (wrapper.dfy): electron-app/directus-wrapper.mjs.

Three behaviours of the code that its messages or comments might suggest otherwise:

- Filtered stderr chunks never reach `log`, so neither `startupLogs` nor directus.log holds them (`Supervisor.FilteredOutputLeavesNoTrace`).
- The timeout message says "after 60 attempts", yet attempts 0 to 60 each issue a request: 61 in all (`Poller.PollGivesUpExactly`).
- When none of the wrapper's candidates exists, it has checked every one of them before exiting with 1 (`Wrapper.RunWrapper`).

## Model

| member | source | states |
|---|---|---|
| Search.FirstIndex | electron-app/main.js:94-100 | The index returned is the first position whose candidate exists. None is returned exactly when no candidate exists. |
| Search.FirstWhere | electron-app/directus-wrapper.mjs:23-32 | The value returned is the candidate at the first existing position. None is returned iff nothing in the list exists. |
| Search.NoLaterCandidatePreferred | electron-app/main.js:94-100 | If candidate k exists, the search finds something at or before k. A later candidate never wins over an earlier existing one. |
| Search.Probe | electron-app/directus-wrapper.mjs:23-32 | The loop returns the same hit as the search. The consulted list stops right after the first hit, so later candidates are never checked. With no hit, every candidate was consulted. |
| Text.Contains | electron-app/main.js:217-219 | `includes` is true iff the needle occurs at some position of the text. |
| Text.Trim | electron-app/main.js:211 | The result is a contiguous slice of the input. Everything cut off on either side is ECMAScript whitespace or a line terminator. The slice neither starts nor ends with such a character. |
| Text.TrimIdempotent | electron-app/main.js:216 | Trimming an already trimmed chunk changes nothing. |
| Text.ToForwardSlashes | electron-app/directus-wrapper.mjs:53 | Length is kept. Each backslash becomes "/" and every other character is kept in place. |
| Text.ForwardSlashesClean | electron-app/directus-wrapper.mjs:53 | No backslash is left, and rewriting twice equals rewriting once. |
| Text.ShowInt | electron-app/main.js:230 | The rendered code starts with "-" iff it is negative, and it is never empty. |
| Text.ParseShowInt | electron-app/main.js:232 | The rendered exit code is well-formed decimal and reads back as the same integer. |
| Platform.MakeMissing | directus-app/server.js:48-53 | Nothing already present disappears, and nothing outside the listed directories and their ancestors appears. Without a throw, every listed directory exists afterwards. A throw names a listed directory that was missing and whose `mkdirSync` throws, and it stays missing. Every reported directory is listed, was missing before, and exists afterwards with its ancestors. None is reported twice. |
| Platform.MakeMissingFailsIff | directus-app/server.js:48-53 | The loop throws iff some listed directory whose `mkdirSync` would throw is still missing at the end. |
| Platform.MakeMissingReportsMissing | directus-app/server.js:49-51 | After a run without a throw, every listed directory that was missing is reported as created, unless an earlier listed directory has it as an ancestor. A directory that only later entries lie under is still reported. |
| Platform.MakeMissingIdempotent | directus-app/server.js:48-53 | After a run without a throw, a second run over the same list creates nothing, reports nothing and leaves the filesystem unchanged. |
| Platform.RewriteArgv | directus-app/server.js:95-99 | The new argv has exactly three elements: the original `argv[0]`, the script, and "start". |
| Platform.RewriteArgvForgetsArguments | electron-app/directus-wrapper.mjs:44-48 | Command lines with the same `argv[0]` rewrite to the same argv, and rewriting is idempotent. |
| Supervisor.Log | electron-app/main.js:11-24 | Exactly one stamped entry is appended at the end. Earlier entries are unchanged. A writable file gains exactly the new entry followed by a newline, after whatever it held before. The file is untouched when the append fails. |
| Supervisor.LogAppendsToFile | electron-app/main.js:15-20 | directus.log is append-only: whatever earlier launches left in it, each `log` call adds exactly its stamped line and a newline. |
| Supervisor.UnlinesAppend | electron-app/main.js:20 | Appending one line per call builds the same text as writing all the lines at once. |
| Supervisor.LogKeepsFileInSync | electron-app/main.js:8-20 | On a file that holds exactly the in-memory entries, one per line (the first launch, when both start empty), a writable `log` call keeps it so. |
| Supervisor.SplashView | electron-app/main.js:309 | The splash shows the newest min(20, n) entries, in order. |
| Supervisor.SplashViewAfterLog | electron-app/main.js:305-311 | After a `log` call the view ends with the new entry. It loses its oldest entry only when it already showed 20. |
| Supervisor.ErrorDialog | electron-app/main.js:239-245 | The dialog keeps the title and begins with the given message. The message ends with the log-file path. |
| Supervisor.GetDirectusPath | electron-app/main.js:26-80 | If the primary directory exists, it is returned. Otherwise the first existing alternative in list order is returned. If nothing exists, the missing primary is returned. The result exists iff the primary or some alternative exists. |
| Supervisor.FindDirectusCli | electron-app/main.js:82-128 | The result is the first existing CLI candidate in priority order, and it exists. It is null iff none of the six exists. |
| Supervisor.ChildEnv | electron-app/main.js:168-199 | The child's variables are the inherited ones plus the fixed keys. Fixed keys override. Every other inherited variable passes through unchanged. |
| Supervisor.ChildEnvSettings | electron-app/main.js:176-198 | DB_FILENAME, STORAGE_LOCAL_ROOT and EXTENSIONS_PATH are always under user data, whatever was inherited. KEY and SECRET carry their fixed prefixes and are never equal. |
| Supervisor.AppDirMissingDialog | electron-app/main.js:133-139 | The "directory missing" dialog ends with the log-file path. |
| Supervisor.CliMissingDialog | electron-app/main.js:143-149 | The "CLI missing" dialog ends with the log-file path. |
| Supervisor.StartDirectus | electron-app/main.js:130-208 | It fails with a dialog iff the resolved directory is missing, or iff no CLI candidate exists in it. Every such dialog names the log file. It stops without spawning iff it got past both checks but the database directory is missing and its `mkdirSync` throws. Otherwise it spawns `<execPath> <cli> start` in that directory, with the child environment. `cli` is exactly the candidate `findDirectusCLI` returns. The database directory then exists, and nothing outside it and its ancestors was added. |
| Supervisor.IsNoise | electron-app/main.js:217-219 | A stderr message is noise iff "DeprecationWarning", "ExperimentalWarning" or "punycode" occurs at some position in it. |
| Supervisor.NoiseInContext | electron-app/main.js:217-219 | A message that is noise stays noise whatever text surrounds it in the chunk. |
| Supervisor.OnChildEvent | electron-app/main.js:210-234 | stdout is always logged, trimmed. stderr is logged iff it has none of the three noise markers, and filtered chunks change nothing. A spawn error logs "ERROR: Failed to start process: " with its message and raises the "启动失败" dialog, whose message starts with the error text. `close` logs "Process exited with code " and the code's text. It raises the "进程异常退出" dialog iff the code is non-null and non-zero, and that dialog starts with "退出代码: " and the code in decimal. Every dialog ends with the log path. |
| Supervisor.ExitCodeText | electron-app/main.js:230 | The code as it appears in the close line: "null" after a signal, otherwise a decimal numeral that reads back as the code. |
| Supervisor.CloseDialogShowsExitCode | electron-app/main.js:229-233 | For every non-zero code, `close` raises a dialog whose message starts with "退出代码: " and a numeral that parses back to exactly that code. |
| Supervisor.AppendsTrans | electron-app/main.js:15-20 | Two runs of appending lines to the file are one run: the file gains the entries of both, in order. |
| Supervisor.OnChildEventAppendsToFile | electron-app/main.js:210-234 | With a writable file, one child event keeps the earlier entries, and the file gains exactly the entries the event added to the list (none for a filtered chunk), after whatever it held before. |
| Supervisor.HandleAllAppendsToFile | electron-app/main.js:210-234 | With a writable file, over any stream of child events the file gains exactly the entries added to the list, in order, whatever earlier launches left in it. |
| Supervisor.HandleAllKeepsFileInSync | electron-app/main.js:8-20 | On the first launch, when the file and the list start out equal, any stream of child events keeps the file an exact mirror of the list. |
| Supervisor.FilteredOutputLeavesNoTrace | electron-app/main.js:215-222 | Removing a filtered stderr chunk from any event stream changes neither the log list, nor the file, nor the dialogs. |
| Supervisor.HandleAllGrowsLog | electron-app/main.js:210-234 | Over any event stream the old log is kept as a prefix. It grows by exactly one entry per unfiltered event, and every dialog raised names the log file. |
| Supervisor.Kill | electron-app/main.js:445-448 | Node's `kill`: a delivered signal sets `killed`. SIGKILL always stops a running child; SIGTERM stops it unless the child ignores it. An exited child is unaffected. |
| Supervisor.QuitAsWritten | electron-app/main.js:443-452 | With no spawned child nothing is sent. Otherwise SIGTERM goes first. SIGKILL is sent iff the child had already exited without ever being signalled. A running child only ever gets SIGTERM. |
| Supervisor.QuitAsWrittenLeavesStubbornChild | electron-app/main.js:447 | A running child that ignores SIGTERM is still running after the quit sequence as written, and no SIGKILL was sent. |
| Supervisor.QuitCorrected | electron-app/main.js:443-452 | With no spawned child nothing is sent. Otherwise the intended two-phase shutdown sends SIGTERM first and always leaves the child stopped. SIGKILL is sent iff the child was running and ignored SIGTERM. |
| Supervisor.QuitAgreesUnlessTermIgnored | electron-app/main.js:443-452 | As written and corrected end the same way, also when there is no child, for every case except a running child that ignores SIGTERM. |
| Poller.CheckReady | electron-app/main.js:344-391 | Above attempt 60 it gives up: no request, a dialog naming the log file. Otherwise it issues a request. It is Ready iff the answer is 200, and every retry is attempts+1. A line is logged iff it gives up, the answer is 200, or a connection error comes at attempts % 10 == 0. Other statuses and timeouts log nothing. The admin page loads iff Ready and the window is alive. |
| Poller.TimeoutDialog | electron-app/main.js:347-351 | The timeout dialog ends with the log-file path. |
| Poller.Poll | electron-app/main.js:344-391 | A chain never issues more requests than it got answers. It is Pending only when answers ran out, and then at attempt start + number of answers. |
| Poller.PollFollowsCheckReady | electron-app/main.js:365-387 | Each link of the chain is one `CheckReady` step. The chain is Ready at once exactly when the step is Ready. On a retry it continues at the attempt the step schedules, with one more request. |
| Poller.PollRequestsBounded | electron-app/main.js:345 | A chain started at attempt a issues at most 61 - a requests, and none once a > 60. From 0 that is at most 61. |
| Poller.PollGivesUpExactly | electron-app/main.js:374 | A server that never answers 200 gets exactly 61 - a requests before the chain gives up. |
| Poller.PollReadyAtFirstOk | electron-app/main.js:365-376 | If the first 200 answers request k within the bound, the chain is Ready at attempt a + k after exactly k + 1 requests. |
| Poller.PollStopsAtVerdict | electron-app/main.js:366-372 | Once Ready or given up, the chain asks for no further answer: appending answers changes nothing. |
| Launcher.Display | directus-app/server.js:33-38 | KEY, SECRET and ADMIN_PASSWORD show "***" iff set and "missing" otherwise. Any other key shows its value when truthy, else "❌ NOT SET". |
| Launcher.EnvReport | directus-app/server.js:22-38 | One line per reported key, in declaration order. |
| Launcher.ReportHidesSecrets | directus-app/server.js:33-38 | Two environments that agree on what may be shown print identical reports. So the values of the masked keys never influence the output. |
| Launcher.KeepTruthy | directus-app/server.js:46 | `.filter(Boolean)` keeps exactly the present, non-empty strings. |
| Launcher.KeepTruthyOne | directus-app/server.js:46 | One element survives the filter iff it is a non-empty string. |
| Launcher.KeepTruthyThree | directus-app/server.js:42-46 | A three-element list is filtered element by element, in order. |
| Launcher.KeepTruthyAppend | directus-app/server.js:46 | Filtering a concatenation concatenates the filtered parts, so order is preserved. |
| Launcher.Directories | directus-app/server.js:42-46 | The list holds exactly the non-empty values among: the dirname of DB_FILENAME when set, STORAGE_LOCAL_ROOT, and EXTENSIONS_PATH. It has at most three entries, and they come in that order, each at most once. |
| Launcher.DirectoriesInOrder | directus-app/server.js:42-46 | With all three set, the list is exactly [dirname(DB_FILENAME), STORAGE_LOCAL_ROOT, EXTENSIONS_PATH]. |
| Launcher.CliCommand | directus-app/server.js:60-61 | On win32 the command is the `.bin/directus` shim plus ".cmd". On any other platform it is the shim unchanged. |
| Launcher.CliCommandPerPlatform | directus-app/server.js:60-61 | The command ends in ".cmd" iff the platform is win32. Dropping that suffix gives the command of every other platform. |
| Launcher.Launch | directus-app/server.js:21-145 | The report and mkdir step always run. A throwing `mkdirSync` exits 1 with argv and env untouched. Then a missing command or entry point exits 1 with argv and env untouched. Otherwise argv becomes [argv[0], entry, "start"] and ELECTRON_RUN_AS_NODE is removed. Then: a `package.json` missing from the disk starts nothing; contents that are not JSON, or JSON `null`, exit 1; type "module" spawns `<execPath> entry start`; any other type loads in-process. |
| Launcher.LaunchStartsIff | directus-app/server.js:48-122 | The CMS is started, in a child or in-process, iff the directories were made, the command and entry exist and `package.json` parsed. Then it runs in a child iff the type is "module". The script exits 1 by itself iff a step before that failed or `package.json` did not parse. It starts nothing iff everything exists but `package.json` is not on the disk. |
| Launcher.LauncherExitCode | directus-app/server.js:126-134 | A numeric child exit code is forwarded unchanged. A signal death (null) exits 0. A spawn error exits 1. |
| Launcher.LauncherExitCodeZeroIff | directus-app/server.js:126-134 | The launcher exits 0 iff the child exited 0 or was ended by a signal. A non-zero child code is never turned into success. |
| Shell.Resolve | src/index.js:30 | An absolute path is kept. A relative one is placed under the base. A non-empty input never resolves to the empty string. |
| Shell.PrepareEnv | src/index.js:24-49 | Each truthy path key of the parsed file gets its resolved value, overriding any prior one. Every other parsed key is copied only over an unset or empty variable. Keys absent from the file keep their value. Without a parsed file nothing changes except LOG_LEVEL. When packaged, LOG_LEVEL is "silent". |
| Shell.PrepareEnvNeverDrops | src/index.js:39-44 | No variable disappears. With no parsed file and not packaged, the environment is returned unchanged. |
| Shell.HideSplashScreen | src/index.js:57-65 | The flag is set after any call. The main window is shown iff the flag was already set. |
| Shell.OnSignals | src/index.js:90-96 | Each signal produces exactly one effect. |
| Shell.LatchNeedsTwoSignals | src/index.js:57-65 | From a fresh latch the first signal, whichever it is, only marks it. Every later signal shows the main window. |
| Shell.LatchStaysOpen | src/index.js:58-64 | Once marked, every call shows the main window. |
| Shell.SecondInstance | src/index.js:126-141 | Outside macOS the link is the first argument starting with "directus://", or undefined if there is none. On macOS the previous link is kept. A welcome message is shown iff the link is non-empty. |
| Shell.FoundLinkIsAnnounced | src/index.js:128-141 | Outside macOS, a command line holding a deep link always yields a "directus://" link and a message. |
| Shell.OpenUrl | src/index.js:152-161 | The link is always remembered. It is announced iff the main window exists. |
| Wrapper.ImportUrl | electron-app/directus-wrapper.mjs:53 | The URL starts with "file:///" and contains no backslash. It is 8 characters longer than the path. Position 8 + i holds the path's i-th character, with "\\" turned into "/". |
| Wrapper.ImportUrlKeepsPlainPath | electron-app/directus-wrapper.mjs:53 | For a path without backslashes the URL is "file:///" + path, so the path can be read back from it. |
| Wrapper.RunWrapper | electron-app/directus-wrapper.mjs:16-56 | It exits with 1 iff no candidate exists, after consulting all of them. Otherwise it stops at the first existing candidate. It imports that candidate's URL with argv [argv[0], cliPath, "start"]. |

## Left out

- Windows, the splash HTML and its styling, IPC registration, the preload bridges, auto-update and protocol-client registration: UI plumbing with no decision logic.
- The packaging configuration (forge.config.js): it has no behaviour.
- The diagnostic directory listings that `getDirectusPath` and `findDirectusCLI` log when nothing is found (`readdirSync`/`statSync`): these are filesystem reads that decide nothing.
- The informational lines that `getDirectusPath`, `findDirectusCLI` and `startDirectus` write to the log, and the console output of the launcher and wrapper other than the environment report. Only the child-event handlers' and poller's lines are modelled.
- Platform.MakeMissing: a throwing `mkdirSync` leaves the filesystem as it was, though a recursive mkdir may already have made some ancestors before it throws. Which directories throw is a parameter, not derived from permissions.
- Supervisor.StartDirectus: after a throwing `mkdirSync` the model only records that nothing was spawned. Electron's default dialog for the uncaught exception in the `ready` handler, and the window timer that is never scheduled, are not modelled.
- `path.join`, `path.resolve` and `path.dirname` semantics: paths are joined with "/" without normalisation. `Launcher.Directories` takes `dirname` as a parameter. `Shell.Resolve` treats a leading "/" as absolute, so Windows drive paths are not modelled.
- `Supervisor.ChildEnv`: the random suffixes of KEY and SECRET (`Math.random().toString(36)`) are parameters, so only their fixed prefixes and their mutual difference are stated, not their unpredictability.
- `Poller.CheckReady`: a timed-out request is one retry step. In Node, `req.destroy()` also fires `'error'`, which schedules a second chain of polls. That is Node-internal behaviour and is not modelled.
- Timers (15 s first poll, 2 s between polls, 2 s settle delay, 5 s wait, 1 s grace) are steps, not time. The model does not decide whether the 1 s grace timer still fires once Electron is quitting.
- The `window-all-closed` kill and quit, the F12 dev-tools shortcut, and the SIGTERM/SIGINT relay in directus-app/server.js (137-138): signal plumbing with no decision beyond forwarding.
- The `require` or `import` of the CMS itself, and the exceptions it may throw: the CMS is opaque. `Launcher.Launch` returns the decision to load it, and `Wrapper.RunWrapper` the decision to import it. The exit(1) after a failed import is not modelled.
- `Launcher.Launch`: whether `package.json` exists is read from the modelled disk, but its parsed contents are a parameter (`PkgInvalid` or the `type` field); JSON parsing itself is not modelled.
- `process.env` on Windows is case-insensitive; the model's environment is a case-sensitive map.
- Exit codes are unbounded integers. The operating system's truncation to 8 bits is not modelled.

## Findings

| source | as written | input that shows it | evidently intended | confidence | as-written member | corrected member |
|---|---|---|---|---|---|---|
| electron-app/main.js:443-452 | After SIGTERM and the grace period, SIGKILL is sent only if `!directusProcess.killed`. Node sets `killed` as soon as a signal is delivered, not when the child exits. | A running child that ignores SIGTERM. The SIGTERM is delivered and `killed` becomes true, so SIGKILL is never sent and the child keeps running (`Supervisor.QuitAsWrittenLeavesStubbornChild`). | Escalate to SIGKILL whenever the child is still running after the grace period (`exitCode === null && signalCode === null`). | not executed; high, given Node's documented meaning of `killed` | Supervisor.QuitAsWritten | Supervisor.QuitCorrected |

=== FILE: launcher.dfy ===
/** The server launcher (directus-app/server.js): it prints the environment
    with secrets masked, creates the data directories named by the
    environment, checks that the CMS command and entry point exist, rewrites
    `process.argv`, and either runs the CMS in a child process (ES-module
    package) or loads it in-process (CommonJS package). */
module Launcher {
  import opened Search
  import opened Text
  import opened Platform

  // -------------------------------------------------- environment report

  /** The variables the launcher reports, in the order it prints them. */
  const ReportedKeys: seq<string> :=
    ["PORT", "DB_CLIENT", "DB_FILENAME", "KEY", "SECRET", "ADMIN_EMAIL", "ADMIN_PASSWORD"]

  /** The variables whose value is never printed. */
  predicate IsMasked(key: string) {
    key == "KEY" || key == "SECRET" || key == "ADMIN_PASSWORD"
  }

  const NotSet := "❌ NOT SET"

  /** The text shown for one variable: masked variables show only whether
      they are set, the others their value or the not-set marker. */
  function Display(env: Env, key: string): (r: string)
    ensures IsMasked(key) ==> (r == "***" <==> Truthy(env, key)) && (r == "missing" <==> !Truthy(env, key))
    ensures !IsMasked(key) && Truthy(env, key) ==> r == env[key]
    ensures !IsMasked(key) && !Truthy(env, key) ==> r == NotSet
  {
    var display := if IsMasked(key) then (if Truthy(env, key) then "***" else "missing")
                   else (if key in env then env[key] else "");
    if display != "" then display else NotSet
  }

  function ReportLine(env: Env, key: string): string {
    "  " + key + ": " + Display(env, key)
  }

  /** The "Environment Configuration" block, one line per reported key. */
  function EnvReport(env: Env): (r: seq<string>)
    ensures |r| == |ReportedKeys|
    ensures forall i :: 0 <= i < |r| ==> r[i] == ReportLine(env, ReportedKeys[i])
  {
    seq(|ReportedKeys|, i requires 0 <= i < |ReportedKeys| => ReportLine(env, ReportedKeys[i]))
  }

  /** What the report may reveal about one variable: for a masked variable
      only whether it is set, for any other its value. */
  ghost predicate ShownAlike(e1: Env, e2: Env, key: string) {
    if IsMasked(key) then Truthy(e1, key) == Truthy(e2, key)
    else Truthy(e1, key) == Truthy(e2, key) && (Truthy(e1, key) ==> e1[key] == e2[key])
  }

  /** The report never depends on the value of KEY, SECRET or
      ADMIN_PASSWORD: environments that differ only in those values (not in
      whether they are set) print identical reports. */
  lemma ReportHidesSecrets(e1: Env, e2: Env)
    requires forall i :: 0 <= i < |ReportedKeys| ==> ShownAlike(e1, e2, ReportedKeys[i])
    ensures EnvReport(e1) == EnvReport(e2)
  {
    forall i | 0 <= i < |ReportedKeys|
      ensures ReportLine(e1, ReportedKeys[i]) == ReportLine(e2, ReportedKeys[i])
    {
      var key := ReportedKeys[i];
      assert ShownAlike(e1, e2, key);
      assert Display(e1, key) == Display(e2, key);
    }
  }

  // ------------------------------------------------------- directories

  /** `.filter(Boolean)` on a list of strings that may be null/undefined. */
  function KeepTruthy(xs: seq<Option<string>>): (r: seq<string>)
    ensures |r| <= |xs|
    ensures forall s :: s in r <==> s != "" && Some(s) in xs
  {
    if |xs| == 0 then []
    else
      var rest := KeepTruthy(xs[1..]);
      assert forall o :: o in xs <==> o == xs[0] || o in xs[1..];
      if xs[0].Some? && xs[0].value != "" then [xs[0].value] + rest else rest
  }

  /** A single element survives the filter iff it is a non-empty string. */
  lemma KeepTruthyOne(o: Option<string>)
    ensures KeepTruthy([o]) == if o.Some? && o.value != "" then [o.value] else []
  {
    assert [o][1..] == [];
  }

  /** A three-element list is filtered element by element. */
  lemma KeepTruthyThree(a: Option<string>, b: Option<string>, c: Option<string>)
    ensures KeepTruthy([a, b, c]) == KeepTruthy([a]) + KeepTruthy([b]) + KeepTruthy([c])
  {
    KeepTruthyAppend([a], [b, c]);
    KeepTruthyAppend([b], [c]);
    assert [a, b, c] == [a] + [b, c];
    assert [b, c] == [b] + [c];
  }

  /** Filtering respects order: filtering a concatenation concatenates the
      filtered parts. */
  lemma {:induction false} KeepTruthyAppend(xs: seq<Option<string>>, ys: seq<Option<string>>)
    ensures KeepTruthy(xs + ys) == KeepTruthy(xs) + KeepTruthy(ys)
    decreases |xs|
  {
    if |xs| == 0 {
      assert xs + ys == ys;
    } else {
      assert (xs + ys)[0] == xs[0];
      assert (xs + ys)[1..] == xs[1..] + ys;
      KeepTruthyAppend(xs[1..], ys);
    }
  }

  function EnvValue(env: Env, key: string): Option<string> {
    if key in env then Some(env[key]) else None
  }

  /** The `directories` list: the database file's directory (when
      DB_FILENAME is set), STORAGE_LOCAL_ROOT and EXTENSIONS_PATH, without
      the unset or empty ones. `dirname` stands for `path.dirname`. */
  function Directories(env: Env, dirname: Path -> Path): (r: seq<Path>)
    ensures |r| <= 3
    ensures forall d :: d in r <==>
              d != "" && (|| (Truthy(env, "DB_FILENAME") && d == dirname(env["DB_FILENAME"]))
                          || (Truthy(env, "STORAGE_LOCAL_ROOT") && d == env["STORAGE_LOCAL_ROOT"])
                          || (Truthy(env, "EXTENSIONS_PATH") && d == env["EXTENSIONS_PATH"]))
    ensures r == (if Truthy(env, "DB_FILENAME") && dirname(env["DB_FILENAME"]) != ""
                  then [dirname(env["DB_FILENAME"])] else [])
               + (if Truthy(env, "STORAGE_LOCAL_ROOT") then [env["STORAGE_LOCAL_ROOT"]] else [])
               + (if Truthy(env, "EXTENSIONS_PATH") then [env["EXTENSIONS_PATH"]] else [])
  {
    var a := if Truthy(env, "DB_FILENAME") then Some(dirname(env["DB_FILENAME"])) else None;
    var b := EnvValue(env, "STORAGE_LOCAL_ROOT");
    var c := EnvValue(env, "EXTENSIONS_PATH");
    KeepTruthyThree(a, b, c);
    KeepTruthyOne(a);
    KeepTruthyOne(b);
    KeepTruthyOne(c);
    KeepTruthy([a, b, c])
  }

  /** With all three variables set (and a non-empty database directory) the
      list is exactly those three, in that order. */
  lemma DirectoriesInOrder(env: Env, dirname: Path -> Path)
    requires Truthy(env, "DB_FILENAME") && dirname(env["DB_FILENAME"]) != ""
    requires Truthy(env, "STORAGE_LOCAL_ROOT") && Truthy(env, "EXTENSIONS_PATH")
    ensures Directories(env, dirname)
            == [dirname(env["DB_FILENAME"]), env["STORAGE_LOCAL_ROOT"], env["EXTENSIONS_PATH"]]
  {
  }

  // ------------------------------------------------------------ launch

  /** The CMS command: the `.bin` shim, with `.cmd` appended on Windows. */
  function CliCommand(scriptDir: Path, os: OS): (r: Path)
    ensures os == Win32 ==> r == Join(scriptDir, ["node_modules", ".bin", "directus"]) + ".cmd"
    ensures os != Win32 ==> r == Join(scriptDir, ["node_modules", ".bin", "directus"])
  {
    var cli := Join(scriptDir, ["node_modules", ".bin", "directus"]);
    if os == Win32 then cli + ".cmd" else cli
  }

  /** The shim path spelled out: `scriptDir/node_modules/.bin/directus`. */
  lemma ShimPath(scriptDir: Path)
    ensures Join(scriptDir, ["node_modules", ".bin", "directus"]) == scriptDir + "/node_modules/.bin/directus"
  {
  }

  /** The command ends in ".cmd" exactly on Windows, and dropping that
      suffix gives back the command every other platform runs. */
  lemma CliCommandPerPlatform(scriptDir: Path, os: OS)
    ensures EndsWith(CliCommand(scriptDir, os), ".cmd") <==> os == Win32
    ensures var c := CliCommand(scriptDir, os);
            var k := if os == Win32 then |".cmd"| else 0;
            |c| >= k && c[..|c| - k] == CliCommand(scriptDir, Linux)
  {
    ShimPath(scriptDir);
    var shim := scriptDir + "/node_modules/.bin/directus";
    assert shim[|shim| - 1] == 's';
    var c := CliCommand(scriptDir, os);
    if os == Win32 {
      assert c == shim + ".cmd";
      assert c[..|c| - 4] == shim;
    } else {
      assert c == shim;
      assert c[|c| - 1] != ".cmd"[3];
      assert c[..|c|] == c;
    }
  }

  /** The CMS entry point the launcher actually runs. */
  function Entry(scriptDir: Path): Path {
    Join(scriptDir, ["node_modules", "directus", "cli.js"])
  }

  /** The CMS package's manifest, whose absence makes the script start nothing. */
  function PackageJson(scriptDir: Path): Path {
    Join(scriptDir, ["node_modules", "directus", "package.json"])
  }

  /** What reading `package.json` gives when the file exists. `PkgInvalid`
      covers text that is not JSON and JSON `null`: both throw (in
      `JSON.parse` or when reading `type`), and the catch exits with 1.
      Otherwise the `type` field, None when it is absent. */
  datatype Package = PkgInvalid | PkgParsed(pkgType: Option<string>)

  datatype Outcome =
    | Exit(code: int)
    | SpawnChild(exec: Path, args: seq<string>, cwd: Path, env: Env)
    | RequireInProcess(entry: Path)
    | NothingStarted

  datatype Launched = Launched(report: seq<string>, mkdir: Mkdir, argv: seq<string>, env: Env, outcome: Outcome)

  /** The whole script, top to bottom. `fails` says which `mkdirSync` calls
      throw; such a throw is uncaught, so Node exits with code 1 before the
      CMS command is looked for. */
  function Launch(scriptDir: Path, os: OS, execPath: Path, env: Env, disk: Disk, fails: Path -> bool,
                  argv: seq<string>, pkg: Package, dirname: Path -> Path): (r: Launched)
    requires |argv| >= 1
    ensures r.report == EnvReport(env)
    ensures r.mkdir == MakeMissing(Directories(env, dirname), disk, fails)
    ensures r.mkdir.failed.Some? ==> r.outcome == Exit(1) && r.argv == argv && r.env == env
    ensures (r.mkdir.failed.None? && CliCommand(scriptDir, os) !in r.mkdir.disk)
              ==> r.outcome == Exit(1) && r.argv == argv && r.env == env
    ensures (&& r.mkdir.failed.None? && CliCommand(scriptDir, os) in r.mkdir.disk
             && Entry(scriptDir) !in r.mkdir.disk)
              ==> r.outcome == Exit(1) && r.argv == argv && r.env == env
    ensures (&& r.mkdir.failed.None? && CliCommand(scriptDir, os) in r.mkdir.disk
             && Entry(scriptDir) in r.mkdir.disk) ==>
              && r.argv == [argv[0], Entry(scriptDir), "start"]
              && r.env == env - {"ELECTRON_RUN_AS_NODE"}
              && (PackageJson(scriptDir) !in r.mkdir.disk ==> r.outcome == NothingStarted)
              && (PackageJson(scriptDir) in r.mkdir.disk && pkg == PkgInvalid ==> r.outcome == Exit(1))
              && (PackageJson(scriptDir) in r.mkdir.disk && pkg == PkgParsed(Some("module")) ==>
                    r.outcome == SpawnChild(execPath, [Entry(scriptDir), "start"], scriptDir, r.env))
              && (PackageJson(scriptDir) in r.mkdir.disk && pkg.PkgParsed? && pkg.pkgType != Some("module") ==>
                    r.outcome == RequireInProcess(Entry(scriptDir)))
  {
    var report := EnvReport(env);
    var made := MakeMissing(Directories(env, dirname), disk, fails);
    var entry := Entry(scriptDir);
    if made.failed.Some? || CliCommand(scriptDir, os) !in made.disk || entry !in made.disk then
      Launched(report, made, argv, env, Exit(1))
    else
      var argv' := RewriteArgv(argv, entry);
      var env' := env - {"ELECTRON_RUN_AS_NODE"};
      var outcome :=
        if PackageJson(scriptDir) !in made.disk then NothingStarted
        else match pkg
          case PkgInvalid => Exit(1)
          case PkgParsed(t) =>
            if t == Some("module") then SpawnChild(execPath, [entry, "start"], scriptDir, env')
            else RequireInProcess(entry);
      Launched(report, made, argv', env', outcome)
  }

  /** The CMS is started, in a child or in-process, exactly when the
      directories were made, the command and entry point exist and
      `package.json` exists and parsed; then the package type alone decides
      which. The launcher exits with 1 by itself exactly when one of those
      steps failed or `package.json` did not parse, and starts nothing when
      `package.json` is absent. */
  lemma LaunchStartsIff(scriptDir: Path, os: OS, execPath: Path, env: Env, disk: Disk, fails: Path -> bool,
                        argv: seq<string>, pkg: Package, dirname: Path -> Path)
    requires |argv| >= 1
    ensures var r := Launch(scriptDir, os, execPath, env, disk, fails, argv, pkg, dirname);
            var ready := && r.mkdir.failed.None?
                         && CliCommand(scriptDir, os) in r.mkdir.disk
                         && Entry(scriptDir) in r.mkdir.disk;
            var manifest := PackageJson(scriptDir) in r.mkdir.disk;
            && ((r.outcome.SpawnChild? || r.outcome.RequireInProcess?) <==> ready && manifest && pkg.PkgParsed?)
            && (r.outcome.SpawnChild? <==> ready && manifest && pkg == PkgParsed(Some("module")))
            && (r.outcome == Exit(1) <==> !ready || (manifest && pkg == PkgInvalid))
            && (r.outcome == NothingStarted <==> ready && !manifest)
  {
  }

  /** How the child of the ES-module branch ended: its `exit` event (code
      None when it died of a signal) or its `error` event. */
  datatype ChildEnd = ChildExited(code: Option<int>) | ChildFailed(message: string)

  /** The launcher's own exit code: the child's code is forwarded unchanged;
      `process.exit(null)` after a signal exits with 0; a spawn error exits
      with 1. */
  function LauncherExitCode(end: ChildEnd): (code: int)
    ensures end.ChildExited? && end.code.Some? ==> code == end.code.value
    ensures end == ChildExited(None) ==> code == 0
    ensures end.ChildFailed? ==> code == 1
  {
    match end
    case ChildExited(c) => (match c case Some(n) => n case None => 0)
    case ChildFailed(_) => 1
  }

  /** The launcher reports success exactly when the child succeeded or was
      ended by a signal; every failing child code is passed on as a failure. */
  lemma LauncherExitCodeZeroIff(end: ChildEnd)
    ensures LauncherExitCode(end) == 0 <==> end == ChildExited(Some(0)) || end == ChildExited(None)
    ensures end.ChildExited? && end.code.Some? && end.code.value != 0 ==> LauncherExitCode(end) != 0
  {
  }
}

=== FILE: platform.dfy ===
/** What the scripts see of Node.js: paths, `process.env`, the filesystem as
    the set of existing paths, `process.platform` and `process.argv`. */
module Platform {
  import opened Search
  import opened Text

  type Path = string

  /** `process.env`: only string values; an absent key reads as `undefined`. */
  type Env = map<string, string>

  /** The filesystem as far as `existsSync` and `mkdirSync` can tell. */
  type Disk = set<Path>

  /** `process.platform`: the two values the code tests for, Linux, and every
      other platform (freebsd, …), none of which the code distinguishes. */
  datatype OS = Win32 | Darwin | Linux | OtherOS

  /** `process.env[key]` is truthy: present and not the empty string. */
  predicate Truthy(env: Env, key: string) {
    key in env && env[key] != ""
  }

  /** `existsSync` as a predicate over candidate paths. */
  function ExistsOn(disk: Disk): Path -> bool {
    p => p in disk
  }

  /** `path.join(base, ...parts)` with "/" as separator; normalisation of
      `..`, duplicate separators and the Windows separator is not modelled. */
  function Join(base: Path, parts: seq<string>): (r: Path)
    ensures StartsWith(r, base)
    decreases |parts|
  {
    if |parts| == 0 then base else Join(base + "/" + parts[0], parts[1..])
  }

  /** What `mkdirSync(d, { recursive: true })` makes exist: `d` itself and
      each of its ancestors, the prefixes of `d` that end just before a "/". */
  function Spine(d: Path): (r: set<Path>)
    ensures d in r
    ensures forall p :: p in r ==> StartsWith(d, p)
  {
    {d} + set i | 0 < i < |d| && d[i] == '/' :: d[..i]
  }

  /** Everything that making each directory of `dirs` brings into existence. */
  function Spines(dirs: seq<Path>): (r: set<Path>)
    ensures forall d :: d in dirs ==> Spine(d) <= r
    decreases |dirs|
  {
    if |dirs| == 0 then {}
    else
      assert forall x :: x in dirs <==> x == dirs[0] || x in dirs[1..];
      Spine(dirs[0]) + Spines(dirs[1..])
  }

  /** Result of the directory step, which visits the directories in order and
      makes and reports each one found missing: the filesystem afterwards,
      the directories reported as created, and the directory whose
      `mkdirSync` threw, if any. */
  datatype Mkdir = Mkdir(disk: Disk, created: seq<Path>, failed: Option<Path>)

  /** Creates, in order, every directory of `dirs` that does not exist yet,
      together with its missing ancestors. `fails(d)` says that
      `mkdirSync(d, …)` throws (no permission, a file in the way); the first
      such throw ends the loop. A directory that an earlier entry already
      created as an ancestor, or that is listed twice, is not made or
      reported again. */
  function MakeMissing(dirs: seq<Path>, disk: Disk, fails: Path -> bool): (r: Mkdir)
    ensures disk <= r.disk <= disk + Spines(dirs)
    ensures r.failed.None? ==> forall d :: d in dirs ==> d in r.disk
    ensures r.failed.Some? ==>
              r.failed.value in dirs && r.failed.value !in r.disk && fails(r.failed.value)
    ensures forall d :: d in r.created ==> d in dirs && d !in disk && Spine(d) <= r.disk
    ensures forall i, j :: 0 <= i < j < |r.created| ==> r.created[i] != r.created[j]
    decreases |dirs|
  {
    if |dirs| == 0 then Mkdir(disk, [], None)
    else
      var d := dirs[0];
      assert forall x :: x in dirs <==> x == d || x in dirs[1..];
      if d in disk then MakeMissing(dirs[1..], disk, fails)
      else if fails(d) then Mkdir(disk, [], Some(d))
      else
        var rest := MakeMissing(dirs[1..], disk + Spine(d), fails);
        Mkdir(rest.disk, [d] + rest.created, rest.failed)
  }

  /** A successful run reports every listed directory that was missing,
      unless an earlier listed directory has it as an ancestor (that
      entry's recursive `mkdirSync` made it first). A directory that only
      later entries lie under is still reported. */
  lemma {:induction false} MakeMissingReportsMissing(dirs: seq<Path>, disk: Disk, fails: Path -> bool, k: nat)
    requires k < |dirs| && dirs[k] !in disk
    requires forall j :: 0 <= j < k ==> dirs[k] !in Spine(dirs[j])
    ensures var r := MakeMissing(dirs, disk, fails);
            r.failed.None? ==> dirs[k] in r.created
    decreases |dirs|
  {
    var d := dirs[k];
    var head := dirs[0];
    if k > 0 {
      assert d !in Spine(head);
      assert dirs[1..][k - 1] == d;
      if head in disk {
        MakeMissingReportsMissing(dirs[1..], disk, fails, k - 1);
      } else if !fails(head) {
        MakeMissingReportsMissing(dirs[1..], disk + Spine(head), fails, k - 1);
      }
    }
  }

  /** The loop fails exactly when some listed directory whose `mkdirSync`
      would throw is still missing at the end. */
  lemma MakeMissingFailsIff(dirs: seq<Path>, disk: Disk, fails: Path -> bool)
    ensures var r := MakeMissing(dirs, disk, fails);
            r.failed.None? <==> forall d :: d in dirs && fails(d) ==> d in r.disk
  {
  }

  /** With every listed directory present the loop does nothing. */
  lemma {:induction false} MakeMissingNothingToDo(dirs: seq<Path>, disk: Disk, fails: Path -> bool)
    requires forall d :: d in dirs ==> d in disk
    ensures MakeMissing(dirs, disk, fails) == Mkdir(disk, [], None)
    decreases |dirs|
  {
    if |dirs| > 0 {
      assert dirs[0] in disk;
      MakeMissingNothingToDo(dirs[1..], disk, fails);
    }
  }

  /** Once a run has succeeded, running the directory step again creates
      nothing, reports nothing and leaves the filesystem as it was. */
  lemma MakeMissingIdempotent(dirs: seq<Path>, disk: Disk, fails: Path -> bool)
    ensures var once := MakeMissing(dirs, disk, fails);
            once.failed.None? ==> MakeMissing(dirs, once.disk, fails) == Mkdir(once.disk, [], None)
  {
    var once := MakeMissing(dirs, disk, fails);
    if once.failed.None? {
      forall d | d in dirs
        ensures d in once.disk
      {
        assert d in Spine(d);
      }
      MakeMissingNothingToDo(dirs, once.disk, fails);
    }
  }

  /** The command line handed to the CMS: the executable, the script, and the
      `start` command; every original argument after the executable is
      dropped. Node always supplies the executable path as `argv[0]`. */
  function RewriteArgv(argv: seq<string>, script: Path): (r: seq<string>)
    requires |argv| >= 1
    ensures |r| == 3 && r[0] == argv[0] && r[1] == script && r[2] == "start"
  {
    [argv[0], script, "start"]
  }

  /** The rewrite keeps only the executable: any two command lines with the
      same `argv[0]` become the same, and rewriting again changes nothing. */
  lemma RewriteArgvForgetsArguments(a: seq<string>, b: seq<string>, script: Path)
    requires |a| >= 1 && |b| >= 1 && a[0] == b[0]
    ensures RewriteArgv(a, script) == RewriteArgv(b, script)
    ensures RewriteArgv(RewriteArgv(a, script), script) == RewriteArgv(a, script)
  {
  }
}

=== FILE: poller.dfy ===
/** The readiness poller of the desktop main process (`checkDirectusReady` in
    electron-app/main.js): every poll asks `GET /server/health` on the local
    server, stops on HTTP 200, retries on anything else, and gives up once the
    attempt counter exceeds 60. Timers become discrete steps and the HTTP
    exchange becomes the `Response` the step is given. */
module Poller {
  import opened Search
  import opened Text
  import opened Platform
  import opened Supervisor

  /** The last attempt number that still issues a request. */
  const MaxAttempt: nat := 60

  /** The page the main window is switched to once the server answers. */
  const AdminUrl := "http://localhost:8055/admin"

  /** How one health request ended. A `Timeout` is a single retry: the
      `'error'` event that Node raises for the destroyed request is not
      modelled. */
  datatype Response = Status(code: int) | ConnError(message: string) | Timeout

  predicate IsOk(resp: Response) {
    resp == Status(200)
  }

  /** What the step schedules next. */
  datatype Next = Retry(attempts: nat) | Ready | TimedOut

  datatype Step = Step(
    next: Next,
    requested: bool,          // a health request was issued
    logLine: Option<string>,  // the message passed to `log`, if any
    dialog: Option<Dialog>,   // the timeout error dialog, if raised
    loadAdmin: bool)          // the main window is switched to AdminUrl

  /** One call `checkDirectusReady(attempts)` together with the handling of
      its response. `resp` is not consulted when no request is issued. */
  function CheckReady(attempts: nat, resp: Response, windowAlive: bool, userData: Path): (s: Step)
    ensures s.next == TimedOut <==> attempts > MaxAttempt
    ensures s.requested <==> attempts <= MaxAttempt
    ensures s.dialog.Some? <==> attempts > MaxAttempt
    ensures s.dialog.Some? ==> EndsWith(s.dialog.value.message, LogFile(userData))
    ensures attempts <= MaxAttempt ==> (s.next == Ready <==> IsOk(resp))
    ensures s.next.Retry? ==> s.next.attempts == attempts + 1
    ensures s.logLine.Some? <==> attempts > MaxAttempt || IsOk(resp) || (resp.ConnError? && attempts % 10 == 0)
    ensures attempts <= MaxAttempt && resp.ConnError? ==> (s.logLine.Some? <==> attempts % 10 == 0)
    ensures attempts <= MaxAttempt && !IsOk(resp) && !resp.ConnError? ==> s.logLine.None?
    ensures s.loadAdmin <==> s.next == Ready && windowAlive
  {
    if attempts > MaxAttempt then
      Step(TimedOut, false,
           Some("ERROR: Directus failed to start after 60 attempts (2 minutes)"),
           Some(TimeoutDialog(userData)), false)
    else match resp
      case Status(code) =>
        if code == 200 then
          Step(Ready, true, Some("✓ Directus is ready! (attempt " + ShowInt(attempts + 1) + ")"), None, windowAlive)
        else
          Step(Retry(attempts + 1), true, None, None, false)
      case ConnError(message) =>
        var line := if attempts % 10 == 0
          then Some("Connection attempt " + ShowInt(attempts + 1) + "/60: " + message)
          else None;
        Step(Retry(attempts + 1), true, line, None, false)
      case Timeout =>
        Step(Retry(attempts + 1), true, None, None, false)
  }

  function TimeoutDialog(userData: Path): (d: Dialog)
    ensures EndsWith(d.message, LogFile(userData))
  {
    ErrorDialog("Directus 启动超时", "启动失败，请检查日志文件：\n" + LogFile(userData), userData)
  }

  /** Where a chain of polls stands. */
  datatype Readiness = Pending(attempts: nat) | ReadyAt(attempt: nat) | GaveUp

  /** The outcome of a chain of polls and the number of requests it issued. */
  datatype Run = Run(state: Readiness, requests: nat)

  /** The chain of polls started at `attempts`, `responses[i]` answering its
      i-th request: each link is one `CheckReady` step (`PollFollowsCheckReady`).
      `Pending` means the answers ran out before a verdict. */
  function Poll(attempts: nat, responses: seq<Response>): (r: Run)
    ensures r.requests <= |responses|
    ensures r.state.Pending? ==> r.requests == |responses| && r.state.attempts == attempts + |responses|
    decreases |responses|
  {
    if attempts > MaxAttempt then Run(GaveUp, 0)
    else if |responses| == 0 then Run(Pending(attempts), 0)
    else if IsOk(responses[0]) then Run(ReadyAt(attempts), 1)
    else
      var rest := Poll(attempts + 1, responses[1..]);
      Run(rest.state, rest.requests + 1)
  }

  /** Each link of the chain is the step `CheckReady` takes: at attempts up
      to 60 the chain stops Ready exactly when the step does, and otherwise
      continues at the attempt the step schedules. */
  lemma PollFollowsCheckReady(attempts: nat, responses: seq<Response>, windowAlive: bool, userData: Path)
    requires attempts <= MaxAttempt && |responses| > 0
    ensures var s := CheckReady(attempts, responses[0], windowAlive, userData);
            && (s.next == Ready <==> Poll(attempts, responses) == Run(ReadyAt(attempts), 1))
            && (s.next.Retry? ==>
                  Poll(attempts, responses).state == Poll(s.next.attempts, responses[1..]).state
                  && Poll(attempts, responses).requests == Poll(s.next.attempts, responses[1..]).requests + 1)
  {
  }

  /** The chain issues at most 61 - attempts requests: attempts up to 60 ask
      the server, attempt 61 gives up without asking. Started at 0, that is
      at most 61 requests. */
  lemma {:induction false} PollRequestsBounded(attempts: nat, responses: seq<Response>)
    ensures Poll(attempts, responses).requests <= if attempts > MaxAttempt then 0 else MaxAttempt + 1 - attempts
    decreases |responses|
  {
    if attempts <= MaxAttempt && |responses| > 0 && !IsOk(responses[0]) {
      PollRequestsBounded(attempts + 1, responses[1..]);
    }
  }

  /** A server that never answers 200 is given up on after exactly
      61 - attempts requests, not before and not later. */
  lemma {:induction false} PollGivesUpExactly(attempts: nat, responses: seq<Response>)
    requires attempts <= MaxAttempt + 1
    requires |responses| >= MaxAttempt + 1 - attempts
    requires NoHit(responses, IsOk)
    ensures Poll(attempts, responses) == Run(GaveUp, MaxAttempt + 1 - attempts)
    decreases MaxAttempt + 1 - attempts
  {
    if attempts <= MaxAttempt {
      assert !IsOk(responses[0]);
      PollGivesUpExactly(attempts + 1, responses[1..]);
    }
  }

  /** A server whose first 200 answers request k (within the bound) makes the
      chain Ready at attempt `attempts + k` after exactly k + 1 requests. */
  lemma {:induction false} PollReadyAtFirstOk(attempts: nat, responses: seq<Response>, k: nat)
    requires IsFirstHit(responses, IsOk, k)
    requires attempts + k <= MaxAttempt
    ensures Poll(attempts, responses) == Run(ReadyAt(attempts + k), k + 1)
    decreases k
  {
    if k > 0 {
      assert !IsOk(responses[0]);
      assert IsFirstHit(responses[1..], IsOk, k - 1);
      PollReadyAtFirstOk(attempts + 1, responses[1..], k - 1);
    }
  }

  /** Once the chain is Ready or has given up, it issues no further request:
      whatever answers would follow are never asked for. */
  lemma {:induction false} PollStopsAtVerdict(attempts: nat, responses: seq<Response>, later: seq<Response>)
    requires !Poll(attempts, responses).state.Pending?
    ensures Poll(attempts, responses + later) == Poll(attempts, responses)
    decreases |responses|
  {
    if attempts <= MaxAttempt {
      assert |responses| > 0;
      assert (responses + later)[0] == responses[0];
      if !IsOk(responses[0]) {
        assert (responses + later)[1..] == responses[1..] + later;
        PollStopsAtVerdict(attempts + 1, responses[1..], later);
      }
    }
  }
}

=== FILE: search.dfy ===
/** Ordered probing: the "first candidate that exists" rule used by the desktop
    main process, the server launcher and the CLI wrapper, and the "first
    argument that looks like a deep link" rule of the second-instance handler. */
module Search {

  /** JavaScript's `null`/`undefined` versus a present value. */
  datatype Option<+T> = None | Some(value: T)

  /** Position `k` is where an in-order search for `p` must stop: it holds
      there and at no earlier position. */
  ghost predicate IsFirstHit<T>(xs: seq<T>, p: T -> bool, k: nat) {
    k < |xs| && p(xs[k]) && forall j :: 0 <= j < k ==> !p(xs[j])
  }

  /** No position of `xs` satisfies `p`. */
  ghost predicate NoHit<T>(xs: seq<T>, p: T -> bool) {
    forall j :: 0 <= j < |xs| ==> !p(xs[j])
  }

  /** Index of the first element satisfying `p`, or None when there is none. */
  function FirstIndex<T>(xs: seq<T>, p: T -> bool): (r: Option<nat>)
    ensures r.Some? ==> IsFirstHit(xs, p, r.value)
    ensures r.None? <==> NoHit(xs, p)
  {
    if |xs| == 0 then None
    else if p(xs[0]) then Some(0)
    else match FirstIndex(xs[1..], p)
      case None => None
      case Some(i) => Some(i + 1)
  }

  /** The first element satisfying `p` (JavaScript's `Array.prototype.find`
      and the `for … if (…) break` loops over candidate paths). */
  function FirstWhere<T>(xs: seq<T>, p: T -> bool): (r: Option<T>)
    ensures r.None? <==> NoHit(xs, p)
    ensures r.Some? ==> exists k: nat :: IsFirstHit(xs, p, k) && xs[k] == r.value
  {
    match FirstIndex(xs, p)
    case None => None
    case Some(k) => Some(xs[k])
  }

  /** The stopping position is unique. */
  lemma FirstHitUnique<T>(xs: seq<T>, p: T -> bool, k: nat, m: nat)
    requires IsFirstHit(xs, p, k) && IsFirstHit(xs, p, m)
    ensures k == m
  {
  }

  /** No later candidate is ever preferred over an earlier one that satisfies
      `p`: whenever position `k` qualifies, the search stops at or before it. */
  lemma NoLaterCandidatePreferred<T>(xs: seq<T>, p: T -> bool, k: nat)
    requires k < |xs| && p(xs[k])
    ensures FirstIndex(xs, p).Some? && FirstIndex(xs, p).value <= k
  {
  }

  /** The probing loop: checks the candidates in order and stops at the
      first that is present. Returns the hit and the candidates actually
      consulted, which stop right after the first hit. */
  method Probe<T>(candidates: seq<T>, present: T -> bool) returns (hit: Option<T>, consulted: seq<T>)
    ensures hit == FirstWhere(candidates, present)
    ensures hit.None? ==> consulted == candidates
    ensures hit.Some? ==> exists k: nat :: IsFirstHit(candidates, present, k)
                                   && consulted == candidates[..k + 1]
                                   && hit.value == candidates[k]
  {
    hit := None;
    consulted := [];
    var i := 0;
    while i < |candidates|
      invariant 0 <= i <= |candidates|
      invariant consulted == candidates[..i]
      invariant NoHit(candidates[..i], present)
    {
      consulted := consulted + [candidates[i]];
      if present(candidates[i]) {
        hit := Some(candidates[i]);
        assert IsFirstHit(candidates, present, i);
        FirstHitUnique(candidates, present, i, FirstIndex(candidates, present).value);
        return;
      }
      i := i + 1;
    }
    assert candidates[..i] == candidates;
  }
}

=== FILE: shell.dfy ===
/** The in-process Electron shell (src/index.js): it merges the `.env` file
    into `process.env` before starting the CMS in-process, shows the main
    window once both the splash animation and the window are ready, and
    reports `directus://` deep links. */
module Shell {
  import opened Search
  import opened Text
  import opened Platform

  // ---------------------------------------------------- environment merge

  /** The `.env` keys that name filesystem locations. */
  predicate IsPathKey(key: string) {
    key == "DB_FILENAME" || key == "EXTENSIONS_PATH" || key == "STORAGE_LOCAL_ROOT"
  }

  /** Resolving a configured path against the project directory `base`: an absolute `p` is kept, a relative one is put under `base`.
      Normalisation of `.`/`..` segments is not modelled. */
  function Resolve(base: Path, p: Path): (r: Path)
    ensures p != "" ==> r != ""
    ensures StartsWith(p, "/") ==> r == p
    ensures !StartsWith(p, "/") ==> StartsWith(r, base)
  {
    if StartsWith(p, "/") then p else base + "/" + p
  }

  /** The path keys of the parsed file, with a non-empty value, resolved. */
  function ResolvedPaths(parsed: Env, base: Path): Env {
    map k | k in parsed && IsPathKey(k) && parsed[k] != "" :: Resolve(base, parsed[k])
  }

  /** Every key of the parsed file is copied into the environment, but only
      over a variable that is unset or empty; the others keep their value. */
  function CopyUnset(env: Env, parsed: Env): Env {
    map k | k in env.Keys + parsed.Keys :: if k in parsed && !Truthy(env, k) then parsed[k] else env[k]
  }

  /** `prepareDirectus()` up to the point where the CMS is imported: with a
      parsed `.env`, path keys are resolved and override, then every other
      key fills in only unset or empty variables; when packaged, LOG_LEVEL is
      forced to "silent". `config` is None when dotenv produced no `parsed`. */
  function PrepareEnv(env: Env, config: Option<Env>, base: Path, packaged: bool): (r: Env)
    ensures packaged ==> "LOG_LEVEL" in r && r["LOG_LEVEL"] == "silent"
    ensures config.None? ==> r == (if packaged then env["LOG_LEVEL" := "silent"] else env)
    ensures config.Some? ==>
              forall k :: k in config.value && IsPathKey(k) && config.value[k] != ""
                ==> k in r && r[k] == Resolve(base, config.value[k])
    ensures config.Some? ==>
              forall k :: k in config.value && !(IsPathKey(k) && config.value[k] != "")
                          && !(packaged && k == "LOG_LEVEL")
                ==> k in r && r[k] == (if Truthy(env, k) then env[k] else config.value[k])
    ensures forall k :: (config.None? || k !in config.value) && !(packaged && k == "LOG_LEVEL")
              ==> (k in r <==> k in env) && (k in env ==> r[k] == env[k])
  {
    var merged := match config
      case None => env
      case Some(parsed) => CopyUnset(env + ResolvedPaths(parsed, base), parsed);
    if packaged then merged["LOG_LEVEL" := "silent"] else merged
  }

  /** Without a parsed `.env` and outside a packaged app the environment is
      left exactly as it was; with one, no variable disappears. */
  lemma PrepareEnvNeverDrops(env: Env, config: Option<Env>, base: Path, packaged: bool)
    ensures env.Keys <= PrepareEnv(env, config, base, packaged).Keys
    ensures config.None? && !packaged ==> PrepareEnv(env, config, base, packaged) == env
  {
  }

  // --------------------------------------------------------- splash latch

  /** The two events that call `handleHideSplashScreen`. */
  datatype SplashSignal = SplashEnded | ReadyToShow

  /** What one call does: only set the flag, or close the splash and show
      and focus the main window. */
  datatype HideEffect = MarkEnded | ShowMain

  /** `handleHideSplashScreen`: the first call only sets
      `isSplashAnimationEnded`; every later call shows the main window. */
  function HideSplashScreen(ended: bool): (r: (bool, HideEffect))
    ensures r.0
    ensures r.1 == ShowMain <==> ended
  {
    if !ended then (true, MarkEnded) else (true, ShowMain)
  }

  /** The effects of the handler over a sequence of signals. */
  function OnSignals(ended: bool, signals: seq<SplashSignal>): (effects: seq<HideEffect>)
    ensures |effects| == |signals|
    decreases |signals|
  {
    if |signals| == 0 then []
    else
      var (ended', effect) := HideSplashScreen(ended);
      [effect] + OnSignals(ended', signals[1..])
  }

  /** Starting with the flag unset, the first signal, whichever it is, only
      marks the latch and every later one shows the main window: the window
      appears at the second signal. */
  lemma {:induction false} LatchNeedsTwoSignals(signals: seq<SplashSignal>)
    ensures var effects := OnSignals(false, signals);
            && (|signals| > 0 ==> effects[0] == MarkEnded)
            && forall i :: 1 <= i < |signals| ==> effects[i] == ShowMain
  {
    if |signals| > 0 {
      LatchStaysOpen(signals[1..]);
    }
  }

  /** Once the flag is set every call shows the main window. */
  lemma {:induction false} LatchStaysOpen(signals: seq<SplashSignal>)
    ensures forall i :: 0 <= i < |signals| ==> OnSignals(true, signals)[i] == ShowMain
    decreases |signals|
  {
    if |signals| > 0 {
      LatchStaysOpen(signals[1..]);
      assert OnSignals(true, signals) == [ShowMain] + OnSignals(true, signals[1..]);
    }
  }

  // ------------------------------------------------------------ deep links

  const Scheme := "directus://"

  predicate IsDeepLink(arg: string) {
    StartsWith(arg, Scheme)
  }

  datatype Arrival = Arrival(url: Option<string>, message: Option<string>)

  /** The `second-instance` handler: outside macOS the remembered link
      becomes the first command-line argument starting with "directus://"
      (undefined when there is none, forgetting any earlier link); on macOS
      it is left as it was. A "Welcome Back" message is shown iff the link is
      non-empty. */
  function SecondInstance(os: OS, previous: Option<string>, commandLine: seq<string>): (r: Arrival)
    ensures os == Darwin ==> r.url == previous
    ensures os != Darwin ==> (r.url.None? <==> NoHit(commandLine, IsDeepLink))
    ensures os != Darwin && r.url.Some? ==>
              exists k: nat :: IsFirstHit(commandLine, IsDeepLink, k) && r.url.value == commandLine[k]
    ensures r.message.Some? <==> r.url.Some? && r.url.value != ""
    ensures r.message.Some? ==> r.message.value == "You arrived from: " + r.url.value
  {
    var url := if os == Darwin then previous else FirstWhere(commandLine, IsDeepLink);
    Arrival(url, if url.Some? && url.value != "" then Some("You arrived from: " + url.value) else None)
  }

  /** Outside macOS a found link always starts with the scheme, so it is
      always announced. */
  lemma FoundLinkIsAnnounced(os: OS, previous: Option<string>, commandLine: seq<string>)
    requires os != Darwin && !NoHit(commandLine, IsDeepLink)
    ensures var r := SecondInstance(os, previous, commandLine);
            r.url.Some? && IsDeepLink(r.url.value) && r.message.Some?
  {
  }

  /** The `open-url` handler: the link is remembered unconditionally and
      announced only when the main window exists. */
  function OpenUrl(url: string, hasWindow: bool): (r: Arrival)
    ensures r.url == Some(url)
    ensures r.message.Some? <==> hasWindow
  {
    Arrival(Some(url), if hasWindow then Some("You arrived from: " + url) else None)
  }
}

=== FILE: supervisor.dfy ===
/** The Electron main process of the desktop app (electron-app/main.js): it
    locates the bundled server, spawns it with a derived environment, records
    the child's output in the startup log, reports failures in error dialogs
    that name the log file, and stops the child when the app quits. */
module Supervisor {
  import opened Search
  import opened Text
  import opened Platform

  /** What main.js reads from Electron and Node about the running app. */
  datatype Host = Host(
    isPackaged: bool,
    resourcesPath: Path,
    appPath: Path,
    mainDir: Path,
    userData: Path,
    execPath: Path)

  /** The persisted log, `<userData>/directus.log`. */
  function LogFile(userData: Path): Path {
    Join(userData, ["directus.log"])
  }

  // ---------------------------------------------------------------- log

  /** The startup log: the in-memory `startupLogs` list and the contents of
      the log file. */
  datatype LogBuffer = LogBuffer(lines: seq<string>, file: string)

  function Stamp(timestamp: string, msg: string): string {
    "[" + timestamp + "] " + msg
  }

  /** The log file holds exactly the in-memory lines, one per line. */
  function Unlines(lines: seq<string>): string
  {
    if |lines| == 0 then "" else Unlines(lines[..|lines| - 1]) + lines[|lines| - 1] + "\n"
  }

  ghost predicate InSync(b: LogBuffer) {
    b.file == Unlines(b.lines)
  }

  /** Writing two runs of lines is writing them one after the other. */
  lemma {:induction false} UnlinesAppend(xs: seq<string>, ys: seq<string>)
    ensures Unlines(xs + ys) == Unlines(xs) + Unlines(ys)
    decreases |ys|
  {
    if |ys| > 0 {
      var zs := xs + ys;
      assert zs[..|zs| - 1] == xs + ys[..|ys| - 1];
      UnlinesAppend(xs, ys[..|ys| - 1]);
    } else {
      assert xs + ys == xs;
    }
  }

  /** `log(msg)`: one stamped entry is appended to `startupLogs`; the same
      line goes to the file unless the append fails, which is swallowed. */
  function Log(b: LogBuffer, timestamp: string, msg: string, fileWritable: bool): (r: LogBuffer)
    ensures |r.lines| == |b.lines| + 1 && r.lines[..|b.lines|] == b.lines
    ensures r.lines[|b.lines|] == Stamp(timestamp, msg)
    ensures StartsWith(r.file, b.file)
    ensures fileWritable ==> r.file == b.file + Unlines(r.lines[|b.lines|..])
    ensures !fileWritable ==> r.file == b.file
  {
    var line := Stamp(timestamp, msg);
    LogBuffer(b.lines + [line], if fileWritable then b.file + line + "\n" else b.file)
  }

  /** directus.log is never truncated: whatever earlier launches left in
      it, a writable file gains exactly the line `startupLogs` gains. */
  lemma LogAppendsToFile(b: LogBuffer, timestamp: string, msg: string)
    ensures var r := Log(b, timestamp, msg, true);
            r.file == b.file + Stamp(timestamp, msg) + "\n"
  {
    var r := Log(b, timestamp, msg, true);
    assert r.lines[|b.lines|..] == [Stamp(timestamp, msg)];
  }

  /** On a file that mirrored the in-memory list, the mirror is kept. */
  lemma LogKeepsFileInSync(b: LogBuffer, timestamp: string, msg: string)
    requires InSync(b)
    ensures InSync(Log(b, timestamp, msg, true))
  {
    var r := Log(b, timestamp, msg, true);
    UnlinesAppend(b.lines, r.lines[|b.lines|..]);
    assert b.lines + r.lines[|b.lines|..] == r.lines;
  }

  const SplashLogLines: nat := 20

  /** The splash screen's `logs.slice(-20)`: the newest entries, at most 20. */
  function SplashView(lines: seq<string>): (r: seq<string>)
    ensures |r| == if |lines| < SplashLogLines then |lines| else SplashLogLines
    ensures r == lines[|lines| - |r|..]
  {
    if |lines| <= SplashLogLines then lines else lines[|lines| - SplashLogLines..]
  }

  /** After a `log` call the splash view ends with the new entry, and drops
      its oldest entry only once 20 are shown. */
  lemma SplashViewAfterLog(b: LogBuffer, timestamp: string, msg: string, fileWritable: bool)
    ensures var v := SplashView(Log(b, timestamp, msg, fileWritable).lines);
            v == (if |b.lines| < SplashLogLines then SplashView(b.lines) else SplashView(b.lines)[1..])
                 + [Stamp(timestamp, msg)]
  {
    var lines := Log(b, timestamp, msg, fileWritable).lines;
    assert lines == b.lines + [Stamp(timestamp, msg)];
  }

  // ------------------------------------------------------- error dialogs

  datatype Dialog = Dialog(title: string, message: string)

  /** `showErrorDialog(title, message)`: the message is followed by the log
      file's location. */
  function ErrorDialog(title: string, message: string, userData: Path): (d: Dialog)
    ensures d.title == title
    ensures StartsWith(d.message, message)
    ensures EndsWith(d.message, LogFile(userData))
  {
    Dialog(title, message + "\n\n日志位置:\n" + LogFile(userData))
  }

  // ------------------------------------------------ locating the server

  /** The directory checked first: inside `app.asar.unpacked` when packaged,
      next to main.js otherwise. */
  function PrimaryAppDir(h: Host): Path {
    if h.isPackaged then Join(h.resourcesPath, ["app.asar.unpacked", "directus-app"])
    else Join(h.mainDir, ["directus-app"])
  }

  function AlternativeAppDirs(h: Host): seq<Path> {
    [ Join(h.resourcesPath, ["directus-app"]),
      Join(h.appPath, ["directus-app"]),
      Join(h.mainDir, ["directus-app"]) ]
  }

  /** `getDirectusPath()`: the primary directory if it exists, else the first
      existing alternative, else the (missing) primary directory. */
  function GetDirectusPath(h: Host, disk: Disk): (r: Path)
    ensures PrimaryAppDir(h) in disk ==> r == PrimaryAppDir(h)
    ensures (PrimaryAppDir(h) !in disk && NoHit(AlternativeAppDirs(h), ExistsOn(disk)))
              ==> r == PrimaryAppDir(h)
    ensures (PrimaryAppDir(h) !in disk && !NoHit(AlternativeAppDirs(h), ExistsOn(disk)))
              ==> exists k: nat :: IsFirstHit(AlternativeAppDirs(h), ExistsOn(disk), k)
                                 && r == AlternativeAppDirs(h)[k]
    ensures r in disk <==> PrimaryAppDir(h) in disk || !NoHit(AlternativeAppDirs(h), ExistsOn(disk))
  {
    var primary := PrimaryAppDir(h);
    if primary in disk then primary
    else match FirstWhere(AlternativeAppDirs(h), ExistsOn(disk))
      case Some(alt) => alt
      case None => primary
  }

  /** The CLI entry points of the bundled server, highest priority first. */
  function CliCandidates(appDir: Path): seq<Path> {
    [ Join(appDir, ["cli.js"]),
      Join(appDir, ["dist", "cli.js"]),
      Join(appDir, ["dist", "cli", "index.js"]),
      Join(appDir, ["dist", "index.js"]),
      Join(appDir, ["node_modules", "directus", "dist", "cli", "index.js"]),
      Join(appDir, ["node_modules", ".bin", "directus"]) ]
  }

  /** `findDirectusCLI(appDir)`: the first existing candidate, or null. */
  function FindDirectusCli(appDir: Path, disk: Disk): (r: Option<Path>)
    ensures r.None? <==> NoHit(CliCandidates(appDir), ExistsOn(disk))
    ensures r.Some? ==> r.value in disk
    ensures r.Some? ==> exists k: nat :: IsFirstHit(CliCandidates(appDir), ExistsOn(disk), k)
                                        && r.value == CliCandidates(appDir)[k]
  {
    FirstWhere(CliCandidates(appDir), ExistsOn(disk))
  }

  // --------------------------------------------------------- spawning

  function DatabaseFile(userData: Path): Path {
    Join(userData, ["database", "directus.db"])
  }

  /** `path.dirname` of the database file. */
  function DatabaseDir(userData: Path): Path {
    Join(userData, ["database"])
  }

  const KeyPrefix := "directus-desktop-key-"
  const SecretPrefix := "directus-desktop-secret-"

  /** The settings main.js fixes for the child; the random parts of KEY and
      SECRET (`Math.random().toString(36)`) are parameters. */
  function FixedEnv(userData: Path, keyNonce: string, secretNonce: string): Env
  {
    map[
      "PORT" := "8055",
      "HOST" := "0.0.0.0",
      "PUBLIC_URL" := "http://localhost:8055",
      "DB_CLIENT" := "sqlite3",
      "DB_FILENAME" := DatabaseFile(userData),
      "STORAGE_LOCATIONS" := "local",
      "STORAGE_LOCAL_ROOT" := Join(userData, ["uploads"]),
      "EXTENSIONS_PATH" := Join(userData, ["extensions"]),
      "ADMIN_EMAIL" := "admin@example.com",
      "ADMIN_PASSWORD" := "admin",
      "KEY" := KeyPrefix + keyNonce,
      "SECRET" := SecretPrefix + secretNonce,
      "TELEMETRY" := "false",
      "NODE_ENV" := "production",
      "LOG_LEVEL" := "info"]
  }

  /** The child's environment is the parent's with the fixed settings laid
      over it: the fixed settings override inherited values, every other inherited variable passes through unchanged. */
  function ChildEnv(parent: Env, userData: Path, keyNonce: string, secretNonce: string): (r: Env)
    ensures var fixed := FixedEnv(userData, keyNonce, secretNonce);
            && r.Keys == parent.Keys + fixed.Keys
            && (forall k :: k in fixed ==> r[k] == fixed[k])
            && (forall k :: k in parent && k !in fixed ==> r[k] == parent[k])
  {
    parent + FixedEnv(userData, keyNonce, secretNonce)
  }

  /** The child always gets the database and storage locations under the
      user-data directory and a signing key distinct from its secret,
      whatever the inherited environment held. */
  lemma ChildEnvSettings(parent: Env, userData: Path, keyNonce: string, secretNonce: string)
    ensures var r := ChildEnv(parent, userData, keyNonce, secretNonce);
            && r["DB_FILENAME"] == DatabaseFile(userData)
            && r["STORAGE_LOCAL_ROOT"] == Join(userData, ["uploads"])
            && r["EXTENSIONS_PATH"] == Join(userData, ["extensions"])
            && r["PORT"] == "8055" && r["LOG_LEVEL"] == "info"
            && StartsWith(r["KEY"], KeyPrefix) && StartsWith(r["SECRET"], SecretPrefix)
            && r["KEY"] != r["SECRET"]
  {
    var r := ChildEnv(parent, userData, keyNonce, secretNonce);
    assert r["KEY"][17] == 'k' && r["SECRET"][17] == 's';
  }

  /** The dialog for a missing server directory. */
  function AppDirMissingDialog(appDir: Path, userData: Path): (d: Dialog)
    ensures EndsWith(d.message, LogFile(userData))
  {
    ErrorDialog(
      "找不到 Directus 文件",
      "Directus 应用目录不存在：\n" + appDir + "\n\n这可能是打包配置问题。\n\n请查看日志：\n" + LogFile(userData),
      userData)
  }

  /** The dialog for a server directory without any CLI candidate. */
  function CliMissingDialog(appDir: Path, userData: Path): (d: Dialog)
    ensures EndsWith(d.message, LogFile(userData))
  {
    ErrorDialog(
      "找不到 Directus CLI",
      "无法在以下目录中找到 Directus CLI：\n" + appDir + "\n\n请查看日志：\n" + LogFile(userData),
      userData)
  }

  /** What `startDirectus()` ends in. `DbDirFailed` is the exception thrown
      by `mkdirSync` for the database directory, which leaves the `ready`
      handler before anything is spawned. */
  datatype Launch =
    | AppDirMissing(dialog: Dialog)
    | CliMissing(dialog: Dialog)
    | DbDirFailed(dir: Path)
    | Spawn(exec: Path, args: seq<string>, cwd: Path, env: Env)

  datatype Started = Started(launch: Launch, disk: Disk)

  /** `startDirectus()`: give up with a dialog when the server directory or
      its CLI is missing; otherwise make sure the database directory exists
      and spawn `<execPath> <cli> start` in the server directory, `cli`
      being the CLI `findDirectusCLI` picked. `fails` says which
      `mkdirSync` calls throw. */
  function StartDirectus(h: Host, disk: Disk, fails: Path -> bool, parent: Env,
                         keyNonce: string, secretNonce: string): (r: Started)
    ensures r.launch.AppDirMissing? <==> GetDirectusPath(h, disk) !in disk
    ensures r.launch.CliMissing? <==>
              GetDirectusPath(h, disk) in disk
              && NoHit(CliCandidates(GetDirectusPath(h, disk)), ExistsOn(disk))
    ensures r.launch.DbDirFailed? <==>
              && GetDirectusPath(h, disk) in disk
              && !NoHit(CliCandidates(GetDirectusPath(h, disk)), ExistsOn(disk))
              && DatabaseDir(h.userData) !in disk && fails(DatabaseDir(h.userData))
    ensures r.launch.DbDirFailed? ==> r.launch.dir == DatabaseDir(h.userData)
    ensures r.launch.Spawn? ==>
              && r.launch.exec == h.execPath
              && |r.launch.args| == 2 && r.launch.args[1] == "start"
              && r.launch.cwd == GetDirectusPath(h, disk)
              && Some(r.launch.args[0]) == FindDirectusCli(r.launch.cwd, disk)
              && r.launch.env == ChildEnv(parent, h.userData, keyNonce, secretNonce)
              && DatabaseDir(h.userData) in r.disk
              && disk <= r.disk <= disk + Spine(DatabaseDir(h.userData))
    ensures !r.launch.Spawn? ==> r.disk == disk
    ensures r.launch.AppDirMissing? || r.launch.CliMissing? ==>
              EndsWith(r.launch.dialog.message, LogFile(h.userData))
  {
    var appDir := GetDirectusPath(h, disk);
    if appDir !in disk then Started(AppDirMissing(AppDirMissingDialog(appDir, h.userData)), disk)
    else match FindDirectusCli(appDir, disk)
      case None => Started(CliMissing(CliMissingDialog(appDir, h.userData)), disk)
      case Some(cli) =>
        var made := MakeMissing([DatabaseDir(h.userData)], disk, fails);
        if made.failed.Some? then Started(DbDirFailed(DatabaseDir(h.userData)), disk)
        else
          var env := ChildEnv(parent, h.userData, keyNonce, secretNonce);
          Started(Spawn(h.execPath, [cli, "start"], appDir, env), made.disk)
  }

  // ------------------------------------------------- child process events

  /** What the spawned child reports, each with the time it is logged at;
      a `close` code of None is JavaScript's `null` (killed by a signal). */
  datatype ChildEvent =
    | Stdout(at: string, data: string)
    | Stderr(at: string, data: string)
    | SpawnFailed(at: string, message: string)
    | Closed(at: string, code: Option<int>)

  /** Known-benign warnings dropped from the child's stderr: a message is
      noise iff one of the three markers occurs somewhere in it. */
  predicate IsNoise(msg: string)
    ensures IsNoise(msg) <==>
              exists i: nat :: || OccursAt(msg, "DeprecationWarning", i)
                               || OccursAt(msg, "ExperimentalWarning", i)
                               || OccursAt(msg, "punycode", i)
  {
    || Contains(msg, "DeprecationWarning")
    || Contains(msg, "ExperimentalWarning")
    || Contains(msg, "punycode")
  }

  /** Noise stays noise whatever surrounds it, so a warning is dropped even
      when it arrives in one chunk with other output. */
  lemma NoiseInContext(msg: string, pre: string, post: string)
    requires IsNoise(msg)
    ensures IsNoise(pre + msg + post)
  {
    if Contains(msg, "DeprecationWarning") {
      ContainsInContext(msg, "DeprecationWarning", pre, post);
    } else if Contains(msg, "ExperimentalWarning") {
      ContainsInContext(msg, "ExperimentalWarning", pre, post);
    } else {
      ContainsInContext(msg, "punycode", pre, post);
    }
  }

  /** `${code}` for the `close` event's code: "null" after a signal,
      otherwise the decimal number, which reads back as the code. */
  function ExitCodeText(code: Option<int>): (t: string)
    ensures code.None? ==> t == "null"
    ensures code.Some? ==> IsDecimal(t) && ParseInt(t) == code.value
  {
    match code
    case None => "null"
    case Some(c) => ParseShowInt(c); ShowInt(c)
  }

  /** Was the stream event dropped by the stderr filter? */
  predicate IsFiltered(ev: ChildEvent) {
    ev.Stderr? && IsNoise(Trim(ev.data))
  }

  datatype Handled = Handled(log: LogBuffer, dialog: Option<Dialog>)

  /** The `stdout`/`stderr` `data`, `error` and `close` handlers of the child. */
  function OnChildEvent(b: LogBuffer, ev: ChildEvent, fileWritable: bool, userData: Path): (h: Handled)
    ensures IsFiltered(ev) ==> h == Handled(b, None)
    ensures !IsFiltered(ev) ==> |h.log.lines| == |b.lines| + 1 && h.log.lines[..|b.lines|] == b.lines
    ensures ev.Stdout? ==> h.log.lines[|b.lines|] == Stamp(ev.at, "[STDOUT] " + Trim(ev.data))
    ensures ev.Stderr? && !IsFiltered(ev) ==> h.log.lines[|b.lines|] == Stamp(ev.at, "[STDERR] " + Trim(ev.data))
    ensures h.dialog.Some? <==> ev.SpawnFailed? || (ev.Closed? && ev.code.Some? && ev.code.value != 0)
    ensures h.dialog.Some? ==> EndsWith(h.dialog.value.message, LogFile(userData))
    ensures ev.SpawnFailed? ==>
              && h.log.lines[|b.lines|] == Stamp(ev.at, "ERROR: Failed to start process: " + ev.message)
              && h.dialog.value.title == "启动失败"
              && StartsWith(h.dialog.value.message, ev.message)
    ensures ev.Closed? ==>
              h.log.lines[|b.lines|] == Stamp(ev.at, "Process exited with code " + ExitCodeText(ev.code))
    ensures ev.Closed? && h.dialog.Some? ==>
              && h.dialog.value.title == "进程异常退出"
              && StartsWith(h.dialog.value.message, "退出代码: " + ShowInt(ev.code.value))
  {
    match ev
    case Stdout(at, data) =>
      Handled(Log(b, at, "[STDOUT] " + Trim(data), fileWritable), None)
    case Stderr(at, data) =>
      var msg := Trim(data);
      if IsNoise(msg) then Handled(b, None)
      else Handled(Log(b, at, "[STDERR] " + msg, fileWritable), None)
    case SpawnFailed(at, message) =>
      Handled(Log(b, at, "ERROR: Failed to start process: " + message, fileWritable),
              Some(ErrorDialog("启动失败", message, userData)))
    case Closed(at, code) =>
      var logged := Log(b, at, "Process exited with code " + ExitCodeText(code), fileWritable);
      if code.Some? && code.value != 0 then
        Handled(logged, Some(ErrorDialog("进程异常退出", "退出代码: " + ShowInt(code.value), userData)))
      else Handled(logged, None)
  }

  /** The dialog for a failing exit names the code: the text after
      "退出代码: " is a decimal numeral that reads back as the exit code. */
  lemma CloseDialogShowsExitCode(b: LogBuffer, at: string, code: int, fileWritable: bool, userData: Path)
    requires code != 0
    ensures var h := OnChildEvent(b, Closed(at, Some(code)), fileWritable, userData);
            var t := ShowInt(code);
            && h.dialog.Some?
            && StartsWith(h.dialog.value.message, "退出代码: " + t)
            && IsDecimal(t) && ParseInt(t) == code
  {
    ParseShowInt(code);
  }

  /** The log and every dialog raised so far. */
  datatype Session = Session(log: LogBuffer, dialogs: seq<Dialog>)

  function Handle(s: Session, ev: ChildEvent, fileWritable: bool, userData: Path): Session {
    var h := OnChildEvent(s.log, ev, fileWritable, userData);
    Session(h.log, s.dialogs + (if h.dialog.Some? then [h.dialog.value] else []))
  }

  function HandleAll(s: Session, evs: seq<ChildEvent>, fileWritable: bool, userData: Path): Session
    decreases |evs|
  {
    if |evs| == 0 then s else HandleAll(Handle(s, evs[0], fileWritable, userData), evs[1..], fileWritable, userData)
  }

  /** `b` continues `a`: the earlier entries are kept, and the file gained
      exactly the new entries, one per line, after what it held before. */
  ghost predicate Appends(a: LogBuffer, b: LogBuffer) {
    && |a.lines| <= |b.lines| && b.lines[..|a.lines|] == a.lines
    && b.file == a.file + Unlines(b.lines[|a.lines|..])
  }

  lemma AppendsTrans(a: LogBuffer, b: LogBuffer, c: LogBuffer)
    requires Appends(a, b) && Appends(b, c)
    ensures Appends(a, c)
  {
    var n, m := |a.lines|, |b.lines|;
    assert c.lines[..n] == c.lines[..m][..n];
    assert c.lines[n..] == b.lines[n..] + c.lines[m..];
    UnlinesAppend(b.lines[n..], c.lines[m..]);
  }

  /** With a writable file, one child event adds to directus.log exactly
      the entries it adds to `startupLogs` (none for filtered output). */
  lemma OnChildEventAppendsToFile(b: LogBuffer, ev: ChildEvent, userData: Path)
    ensures Appends(b, OnChildEvent(b, ev, true, userData).log)
  {
    var h := OnChildEvent(b, ev, true, userData);
    if IsFiltered(ev) {
      assert h.log.lines[|b.lines|..] == [];
    }
  }

  /** Over a whole event stream with a writable file, directus.log gains
      exactly the entries `startupLogs` gains, in order, after whatever it
      held from earlier launches. */
  lemma {:induction false} HandleAllAppendsToFile(s: Session, evs: seq<ChildEvent>, userData: Path)
    ensures Appends(s.log, HandleAll(s, evs, true, userData).log)
    decreases |evs|
  {
    var t := HandleAll(s, evs, true, userData);
    if |evs| == 0 {
      assert t.log.lines[|s.log.lines|..] == [];
    } else {
      var s1 := Handle(s, evs[0], true, userData);
      OnChildEventAppendsToFile(s.log, evs[0], userData);
      HandleAllAppendsToFile(s1, evs[1..], userData);
      AppendsTrans(s.log, s1.log, t.log);
    }
  }

  /** On the first launch directus.log starts out as the (then empty)
      `startupLogs`; from such a start it stays its exact mirror. */
  lemma HandleAllKeepsFileInSync(s: Session, evs: seq<ChildEvent>, userData: Path)
    requires InSync(s.log)
    ensures InSync(HandleAll(s, evs, true, userData).log)
  {
    var t := HandleAll(s, evs, true, userData);
    HandleAllAppendsToFile(s, evs, userData);
    UnlinesAppend(s.log.lines, t.log.lines[|s.log.lines|..]);
    assert s.log.lines + t.log.lines[|s.log.lines|..] == t.log.lines;
  }

  /** Handling a stream in two pieces is handling it in one. */
  lemma {:induction false} HandleAllAppend(s: Session, xs: seq<ChildEvent>, ys: seq<ChildEvent>, w: bool, userData: Path)
    ensures HandleAll(s, xs + ys, w, userData) == HandleAll(HandleAll(s, xs, w, userData), ys, w, userData)
    decreases |xs|
  {
    if |xs| == 0 {
      assert xs + ys == ys;
    } else {
      assert (xs + ys)[0] == xs[0];
      assert (xs + ys)[1..] == xs[1..] + ys;
      HandleAllAppend(Handle(s, xs[0], w, userData), xs[1..], ys, w, userData);
    }
  }

  /** A filtered stderr chunk leaves no trace anywhere: neither in
      `startupLogs`, nor in the file, nor in the dialogs. */
  lemma FilteredOutputLeavesNoTrace(s: Session, xs: seq<ChildEvent>, ev: ChildEvent, ys: seq<ChildEvent>, w: bool, userData: Path)
    requires IsFiltered(ev)
    ensures HandleAll(s, xs + [ev] + ys, w, userData) == HandleAll(s, xs + ys, w, userData)
  {
    var mid := HandleAll(s, xs, w, userData);
    HandleAllAppend(s, xs + [ev], ys, w, userData);
    HandleAllAppend(s, xs, [ev], w, userData);
    HandleAllAppend(s, xs, ys, w, userData);
    assert Handle(mid, ev, w, userData) == mid;
    assert HandleAll(mid, [ev], w, userData) == mid;
  }

  /** How many events of the stream get past the stderr filter. */
  function Unfiltered(evs: seq<ChildEvent>): (n: nat)
    ensures n <= |evs|
  {
    if |evs| == 0 then 0 else (if IsFiltered(evs[0]) then 0 else 1) + Unfiltered(evs[1..])
  }

  /** Over any stream of events the log only grows, by exactly one entry per
      event that is not filtered, and every dialog names the log file. */
  lemma {:induction false} HandleAllGrowsLog(s: Session, evs: seq<ChildEvent>, w: bool, userData: Path)
    requires forall d :: d in s.dialogs ==> EndsWith(d.message, LogFile(userData))
    ensures var t := HandleAll(s, evs, w, userData);
            && |t.log.lines| == |s.log.lines| + Unfiltered(evs)
            && t.log.lines[..|s.log.lines|] == s.log.lines
            && forall d :: d in t.dialogs ==> EndsWith(d.message, LogFile(userData))
    decreases |evs|
  {
    if |evs| > 0 {
      var s1 := Handle(s, evs[0], w, userData);
      assert forall d :: d in s1.dialogs ==> EndsWith(d.message, LogFile(userData));
      HandleAllGrowsLog(s1, evs[1..], w, userData);
      var t := HandleAll(s1, evs[1..], w, userData);
      assert t.log.lines[..|s.log.lines|] == t.log.lines[..|s1.log.lines|][..|s.log.lines|];
    }
  }

  // ---------------------------------------------------------------- quit

  /** The child as Node's `ChildProcess` describes it: `killed` turns true
      once `kill()` has delivered a signal, whether or not the child died. */
  datatype Child = Child(running: bool, killed: bool, ignoresTerm: bool)

  datatype Signal = SigTerm | SigKill

  /** `child.kill(sig)`: nothing happens to a child that has already exited;
      SIGKILL always ends a running child, SIGTERM unless it ignores it. */
  function Kill(c: Child, sig: Signal): (r: Child)
    ensures r.ignoresTerm == c.ignoresTerm
    ensures !c.running ==> r == c
    ensures c.running ==> r.killed
    ensures r.running <==> c.running && sig == SigTerm && c.ignoresTerm
  {
    if !c.running then c
    else Child(sig == SigTerm && c.ignoresTerm, true, c.ignoresTerm)
  }

  /** The signals sent, and the child afterwards (None when there is none). */
  datatype Quit = Quit(sent: seq<Signal>, child: Option<Child>)

  /** The `before-quit` handler as written, for `directusProcess` (None when
      `startDirectus` never spawned one): nothing without a child; otherwise
      SIGTERM, then after the grace period SIGKILL only if `!killed`. Since a
      delivered SIGTERM sets `killed`, SIGKILL only ever goes to a child that
      had already exited. */
  function QuitAsWritten(p: Option<Child>): (q: Quit)
    ensures p.None? ==> q == Quit([], None)
    ensures p.Some? ==> q.child.Some? && |q.sent| >= 1 && q.sent[0] == SigTerm
    ensures SigKill in q.sent <==> p.Some? && !p.value.running && !p.value.killed
    ensures p.Some? && p.value.running ==> q.sent == [SigTerm]
  {
    match p
    case None => Quit([], None)
    case Some(c) =>
      var afterTerm := Kill(c, SigTerm);
      if !afterTerm.killed then Quit([SigTerm, SigKill], Some(Kill(afterTerm, SigKill)))
      else Quit([SigTerm], Some(afterTerm))
  }

  /** A running child that ignores SIGTERM survives the quit sequence as
      written: the delivered SIGTERM already set `killed`, so the SIGKILL
      escalation never fires. */
  lemma QuitAsWrittenLeavesStubbornChild()
    ensures var q := QuitAsWritten(Some(Child(true, false, true)));
            q.child.Some? && q.child.value.running && q.sent == [SigTerm]
  {
  }

  /** The two-phase shutdown as intended: nothing without a child;
      otherwise SIGTERM, then SIGKILL when the child is still running after
      the grace period (`exitCode === null && signalCode === null`). */
  function QuitCorrected(p: Option<Child>): (q: Quit)
    ensures p.None? ==> q == Quit([], None)
    ensures p.Some? ==> q.child.Some? && !q.child.value.running
    ensures p.Some? ==> |q.sent| >= 1 && q.sent[0] == SigTerm
    ensures SigKill in q.sent <==> p.Some? && p.value.running && p.value.ignoresTerm
  {
    match p
    case None => Quit([], None)
    case Some(c) =>
      var afterTerm := Kill(c, SigTerm);
      if afterTerm.running then Quit([SigTerm, SigKill], Some(Kill(afterTerm, SigKill)))
      else Quit([SigTerm], Some(afterTerm))
  }

  /** The corrected sequence differs from the code only for a child that
      ignores SIGTERM; in every other case both end the same way. */
  lemma QuitAgreesUnlessTermIgnored(p: Option<Child>)
    requires !(p.Some? && p.value.running && p.value.ignoresTerm)
    ensures QuitAsWritten(p).child == QuitCorrected(p).child
  {
  }
}

=== FILE: text.dfy ===
/** The string operations the shell relies on: prefix/suffix/substring tests
    (`startsWith`, `includes`), `String.prototype.trim`, the backslash-to-slash
    rewrite used for import URLs, and the decimal rendering of exit codes in
    template literals. */
module Text {

  predicate StartsWith(s: string, prefix: string) {
    |prefix| <= |s| && s[..|prefix|] == prefix
  }

  predicate EndsWith(s: string, suffix: string) {
    |suffix| <= |s| && s[|s| - |suffix|..] == suffix
  }

  /** `sub` occurs in `s` starting at position `i`. */
  predicate OccursAt(s: string, sub: string, i: nat) {
    i + |sub| <= |s| && s[i..i + |sub|] == sub
  }

  lemma ShiftOccurrence(s: string, sub: string)
    requires |s| > 0
    ensures forall i: nat :: OccursAt(s[1..], sub, i) <==> OccursAt(s, sub, i + 1)
  {
    forall i: nat
      ensures OccursAt(s[1..], sub, i) <==> OccursAt(s, sub, i + 1)
    {
      if i + |sub| <= |s[1..]| {
        assert s[1..][i..i + |sub|] == s[i + 1..i + 1 + |sub|];
      }
    }
  }

  /** JavaScript's `s.includes(sub)`. */
  function Contains(s: string, sub: string): (r: bool)
    ensures r <==> exists i: nat :: OccursAt(s, sub, i)
    decreases |s|
  {
    if StartsWith(s, sub) then
      assert OccursAt(s, sub, 0);
      true
    else if |s| == 0 then
      false
    else
      ShiftOccurrence(s, sub);
      var r := Contains(s[1..], sub);
      assert r ==> exists i: nat :: OccursAt(s, sub, i) by {
        if r {
          var i: nat :| OccursAt(s[1..], sub, i);
          assert OccursAt(s, sub, i + 1);
        }
      }
      assert (exists i: nat :: OccursAt(s, sub, i)) ==> r by {
        if exists i: nat :: OccursAt(s, sub, i) {
          var i: nat :| OccursAt(s, sub, i);
          assert i != 0;
          assert OccursAt(s[1..], sub, i - 1);
        }
      }
      r
  }

  /** An occurrence survives any text put around it. */
  lemma ContainsInContext(s: string, sub: string, pre: string, post: string)
    requires Contains(s, sub)
    ensures Contains(pre + s + post, sub)
  {
    var i: nat :| OccursAt(s, sub, i);
    var t := pre + s + post;
    assert t[|pre| + i..|pre| + i + |sub|] == s[i..i + |sub|];
    assert OccursAt(t, sub, |pre| + i);
  }

  /** The characters `String.prototype.trim` strips: ECMAScript WhiteSpace
      (tab, vertical tab, form feed, space, no-break space, byte-order mark and
      the space separators) and LineTerminator (LF, CR, LS, PS). */
  predicate IsJsSpace(c: char) {
    || c == '\t' || c == '\U{000B}' || c == '\U{000C}' || c == ' '
    || c == '\U{00A0}' || c == '\U{FEFF}' || c == '\U{1680}'
    || ('\U{2000}' <= c <= '\U{200A}')
    || c == '\U{202F}' || c == '\U{205F}' || c == '\U{3000}'
    || c == '\n' || c == '\r' || c == '\U{2028}' || c == '\U{2029}'
  }

  /** The first index at or after `from` that does not hold a blank: where
      the leading run of blanks that `trim` strips ends. */
  function SkipBlanks(s: string, from: nat): (n: nat)
    requires from <= |s|
    ensures from <= n <= |s|
    ensures forall i :: from <= i < n ==> IsJsSpace(s[i])
    ensures n < |s| ==> !IsJsSpace(s[n])
    decreases |s| - from
  {
    if from < |s| && IsJsSpace(s[from]) then SkipBlanks(s, from + 1) else from
  }

  /** The end of `s[lo..hi]` once its trailing run of blanks is cut off. */
  function SkipBlanksBack(s: string, lo: nat, hi: nat): (n: nat)
    requires lo <= hi <= |s|
    ensures lo <= n <= hi
    ensures forall i :: n <= i < hi ==> IsJsSpace(s[i])
    ensures n > lo ==> !IsJsSpace(s[n - 1])
    decreases hi - lo
  {
    if lo < hi && IsJsSpace(s[hi - 1]) then SkipBlanksBack(s, lo, hi - 1) else hi
  }

  /** `s` with every character of `s[..a]` and `s[b..]` blank and `s[a..b]`
      neither starting nor ending with a blank is trimmed to `s[a..b]`. */
  ghost predicate IsTrimmedSlice(s: string, a: nat, b: nat) {
    && a <= b <= |s|
    && (forall i :: 0 <= i < a ==> IsJsSpace(s[i]))
    && (forall i :: b <= i < |s| ==> IsJsSpace(s[i]))
    && (a < b ==> !IsJsSpace(s[a]) && !IsJsSpace(s[b - 1]))
  }

  /** JavaScript's `s.trim()`. */
  function Trim(s: string): (r: string)
    ensures exists a: nat, b: nat :: IsTrimmedSlice(s, a, b) && r == s[a..b]
  {
    var a := SkipBlanks(s, 0);
    var b := SkipBlanksBack(s, a, |s|);
    assert IsTrimmedSlice(s, a, b);
    s[a..b]
  }

  /** Trimming is idempotent: a trimmed string has nothing left to strip. */
  lemma {:induction false} TrimIdempotent(s: string)
    ensures Trim(Trim(s)) == Trim(s)
  {
    var r := Trim(s);
    var a: nat, b: nat :| IsTrimmedSlice(s, a, b) && r == s[a..b];
    if |r| > 0 {
      assert r[0] == s[a] && r[|r| - 1] == s[b - 1];
      assert SkipBlanks(r, 0) == 0;
      assert SkipBlanksBack(r, 0, |r|) == |r|;
      assert r[0..|r|] == r;
    }
  }

  /** `s.replace(/\\/g, '/')`: every backslash becomes a forward slash. */
  function ToForwardSlashes(s: string): (r: string)
    ensures |r| == |s|
    ensures forall i :: 0 <= i < |s| ==> r[i] == (if s[i] == '\\' then '/' else s[i])
  {
    if |s| == 0 then "" else [if s[0] == '\\' then '/' else s[0]] + ToForwardSlashes(s[1..])
  }

  /** Rewriting is idempotent and leaves no backslash behind. */
  lemma ForwardSlashesClean(s: string)
    ensures '\\' !in ToForwardSlashes(s)
    ensures ToForwardSlashes(ToForwardSlashes(s)) == ToForwardSlashes(s)
  {
    var r := ToForwardSlashes(s);
    assert forall i :: 0 <= i < |r| ==> r[i] != '\\';
  }

  predicate IsDigit(c: char) {
    '0' <= c <= '9'
  }

  predicate IsDigits(s: string) {
    forall i :: 0 <= i < |s| ==> IsDigit(s[i])
  }

  function DigitChar(d: nat): (c: char)
    requires d < 10
    ensures IsDigit(c) && c as int - '0' as int == d
  {
    "0123456789"[d]
  }

  /** Decimal digits of `n` without leading zeros, as a template literal
      renders a non-negative integer. */
  function ShowNat(n: nat): (r: string)
    ensures |r| > 0 && IsDigits(r)
    ensures |r| > 1 ==> r[0] != '0'
    decreases n
  {
    if n < 10 then [DigitChar(n)] else ShowNat(n / 10) + [DigitChar(n % 10)]
  }

  function ParseNat(s: string): nat
    requires IsDigits(s)
  {
    if |s| == 0 then 0 else ParseNat(s[..|s| - 1]) * 10 + (s[|s| - 1] as int - '0' as int)
  }

  /** Reading back the rendered digits gives the number. */
  lemma {:induction false} ParseShowNat(n: nat)
    ensures ParseNat(ShowNat(n)) == n
    decreases n
  {
    if n >= 10 {
      var s := ShowNat(n);
      assert s[..|s| - 1] == ShowNat(n / 10);
      ParseShowNat(n / 10);
    }
  }

  /** An integer as `${n}` renders it: optional minus sign, then digits. */
  function ShowInt(n: int): (r: string)
    ensures n < 0 <==> (|r| > 0 && r[0] == '-')
    ensures |r| > 0
  {
    if n < 0 then "-" + ShowNat(-n) else ShowNat(n)
  }

  /** Text that `ShowInt` can produce: digits, optionally after a minus sign. */
  predicate IsDecimal(s: string) {
    |s| > 0 && (if s[0] == '-' then IsDigits(s[1..]) else IsDigits(s))
  }

  function ParseInt(s: string): int
    requires IsDecimal(s)
  {
    if s[0] == '-' then -(ParseNat(s[1..]) as int) else ParseNat(s)
  }

  /** Rendering is injective: the rendered text determines the exit code. */
  lemma ParseShowInt(n: int)
    ensures IsDecimal(ShowInt(n)) && ParseInt(ShowInt(n)) == n
  {
    var s := ShowInt(n);
    if n < 0 {
      var d := ShowNat(-n);
      assert s == "-" + d;
      assert s[1..] == d;
      ParseShowNat(-n);
    } else {
      assert IsDigit(s[0]);
      ParseShowNat(n);
    }
  }
}

=== FILE: wrapper.dfy ===
/** The ES-module CLI wrapper (electron-app/directus-wrapper.mjs): it finds
    the CMS command-line entry point among fixed candidates, exits with code 1
    when there is none, rewrites `process.argv` and hands over to the CMS by
    a dynamic `import` of a `file:///` URL. */
module Wrapper {
  import opened Search
  import opened Text
  import opened Platform

  /** The entry points tried, in order, relative to the wrapper's directory. */
  function CliCandidates(dir: Path): seq<Path> {
    [ Join(dir, ["node_modules", "directus", "dist", "cli", "index.js"]),
      Join(dir, ["node_modules", "directus", "dist", "cli.js"]),
      Join(dir, ["node_modules", "directus", "dist", "index.js"]),
      Join(dir, ["cli.js"]) ]
  }

  const FileScheme := "file:///"

  /** The URL the CLI is imported from: the `file:///` scheme, then the path
      with each backslash turned into a slash and every other character kept. */
  function ImportUrl(cliPath: Path): (u: string)
    ensures StartsWith(u, FileScheme)
    ensures '\\' !in u
    ensures |u| == |FileScheme| + |cliPath|
    ensures forall i :: 0 <= i < |cliPath| ==>
              u[|FileScheme| + i] == (if cliPath[i] == '\\' then '/' else cliPath[i])
  {
    ForwardSlashesClean(cliPath);
    FileScheme + ToForwardSlashes(cliPath)
  }

  /** For a path without backslashes the URL is the scheme followed by the
      path itself, so the path can be read back from the URL. */
  lemma ImportUrlKeepsPlainPath(cliPath: Path)
    requires '\\' !in cliPath
    ensures ImportUrl(cliPath) == FileScheme + cliPath
    ensures ImportUrl(cliPath)[|FileScheme|..] == cliPath
  {
    var u := ImportUrl(cliPath);
    assert u[|FileScheme|..] == cliPath;
  }

  datatype Outcome = Exit(code: int) | Import(url: string, argv: seq<string>)

  /** The wrapper script: probe the candidates in order, stopping at the first
      that exists; exit with 1 when none does; otherwise set `process.argv`
      to `[argv[0], cliPath, 'start']` and import the CLI. `consulted` is
      the list of candidates whose existence was checked. */
  method RunWrapper(dir: Path, disk: Disk, argv: seq<string>) returns (outcome: Outcome, consulted: seq<Path>)
    requires |argv| >= 1
    ensures outcome == Exit(1) <==> NoHit(CliCandidates(dir), ExistsOn(disk))
    ensures outcome.Exit? ==> consulted == CliCandidates(dir)
    ensures outcome.Import? ==>
              exists k: nat :: && IsFirstHit(CliCandidates(dir), ExistsOn(disk), k)
                               && consulted == CliCandidates(dir)[..k + 1]
                               && outcome.url == ImportUrl(CliCandidates(dir)[k])
                               && outcome.argv == [argv[0], CliCandidates(dir)[k], "start"]
  {
    var cliPath;
    cliPath, consulted := Probe(CliCandidates(dir), ExistsOn(disk));
    match cliPath {
      case None =>
        outcome := Exit(1);
      case Some(path) =>
        outcome := Import(ImportUrl(path), RewriteArgv(argv, path));
    }
  }
}
